=== FILE: README.md ===
# A verified model of the mkdocs-translations `Translator` plugin

The `Translator` plugin of MkDocs builds one site per language from
source files named `<page>.<lang>.md`. This project models the core of
the plugin in Dafny:

- the language resolver `_get_lang`;
- the page translator `translate_page`, which rewrites a page record's
  name, destination path and URL into a copy under `<lang>/`;
- the file partitioner `on_files`. It routes assets and default-language
  pages to the list returned to MkDocs, and translated copies to
  per-language lists (`i18pages`). `_sort_translated_files` then sorts
  those lists stably by URL depth. `Partition.OnFiles` applies
  `translate_page` as written, as line 84 does.
  `Partition.OnFilesIntended` applies the corrected translator (see
  Findings);
- the build-once guard of `on_nav` and the homepage lookup
  `_get_lang_homepage`;
- the language pick of `on_page_context`.

Python's string operations (`replace`, `split`, `join`, `strip`,
`rsplit`, `startswith`, `endswith`, `in`) are modelled exactly, in
`strings.dfy`. That includes `replace` with an empty pattern. A page
record is the immutable datatype `Pages.File`. The plugin's
`defaultdict` of file lists is a `map<string, seq<File>>`. A language
with no entry reads as the empty list, and an entry appears only when
something is appended to it.

What MkDocs itself provides becomes a parameter:

- `urllib.parse.quote` and the joining of the site directory with a
  path are the two functions of `Translate.Host`;
- `get_navigation` is the `build` argument of `Navigation.OnNav`.

Modules follow the plugin's structure:

- `Language`: the configuration and `_get_lang`.
- `Translate`: `translate_page`, both as written and with the index
  handling it evidently intends (see Findings).
- `Sorting`: the depth sort.
- `Partition`: `on_files`.
- `Navigation`: `on_nav` and `_get_lang_homepage`.
- `Theme`: `on_page_context`.
- `TaggedPages`: general theorems about the pages MkDocs creates for
  `<base>.<lang>.md`.
- `Site`: the hooks composed.
- `Findings` and `Scenarios`: concrete inputs.

Where the code and its documentation differ, the model follows the
code:

- `_get_lang` reads the page URL, not the file name. It takes what
  follows the URL's last `.` and strips `/` from it. A page served
  without directory URLs, such as `guide.fr.html`, therefore yields the
  tag `html`, and it resolves to the default language unless `html` is
  configured (`Language.GetLangUnrecognised`). A directory URL
  `<base>.<x>/` resolves to `x` when `x` is configured
  (`Language.GetLangOfTaggedUrl`) and to the default language otherwise
  (`Language.GetLangUnconfiguredDir`).
- `on_nav` builds a navigation for every key of `i18pages`, not only
  for languages whose list is non-empty.
- A URL like `fr/` (from a page `fr.md`) carries no `.`. Its whole text
  stripped of `/` is the tag, so the page resolves to `fr`.

## Model

| member | source | states |
|---|---|---|
| Language.UrlTag | mkdocs_translations/plugin.py:209 | the tag taken from a URL holds no `.` and neither starts nor ends with `/` |
| Language.GetLang | mkdocs_translations/plugin.py:202-212 | the language is always a configured language or the default; it is the URL's tag exactly when that tag is configured, and the default otherwise |
| Language.GetLangOfTaggedUrl | mkdocs_translations/plugin.py:209-212 | a directory URL `<base>.<lang>/` of a configured language resolves to that language, whatever the base |
| Language.GetLangUnrecognised | mkdocs_translations/plugin.py:209-212 | a URL whose last `.`-segment holds no `/` and is not a configured language resolves to the default language (a URL ending in `.html`, or the root `.`) |
| Language.GetLangUnconfiguredDir | mkdocs_translations/plugin.py:209-212 | a directory URL `<base>.<x>/` whose `x` is not a configured language resolves to the default language |
| Strings.ReplaceAllIsJoinOfSplit | mkdocs_translations/plugin.py:110 | Python's `replace` equals splitting at the pattern and joining with the replacement |
| Strings.JoinSplit | mkdocs_translations/plugin.py:230 | joining the parts of a split with the separator gives back the string |
| Strings.SplitJoin | mkdocs_translations/plugin.py:230 | splitting a join of separator-free parts gives back the parts |
| Strings.SplitCount | mkdocs_translations/plugin.py:230 | splitting at one character gives one more part than the character's count |
| Strings.Strip | mkdocs_translations/plugin.py:209 | `strip(c)` removes exactly the leading and trailing runs of `c`, so neither end of the result is `c` |
| Strings.AfterLast | mkdocs_translations/plugin.py:209 | `rsplit(c, 1)[-1]` is a `c`-free suffix of the string, preceded by `c` when it is not the whole string |
| Pages.DocumentationPages | mkdocs_translations/plugin.py:74 | the documentation pages are exactly the files marked as pages |
| Pages.Assets | mkdocs_translations/plugin.py:73-75 | the assets are exactly the files not marked as pages |
| Translate.StripLangSuffix | mkdocs_translations/plugin.py:110 | the new name is the old name with every `.<lang>` removed, and is the old name when it holds none |
| Translate.DestPathAsWritten | mkdocs_translations/plugin.py:107-122 | the path starts with `<lang>/`; when it holds `index.<lang>/` anywhere, every occurrence is cut out; otherwise every occurrence of the old name becomes the new name |
| Translate.CollapseIndexDir | mkdocs_translations/plugin.py:112-116 | the directory segments are those of the path without `index.<lang>`, and the file name is kept |
| Translate.DestPath | mkdocs_translations/plugin.py:107-122 | the path starts with `<lang>/`; for an index page the directory segments lose exactly `index.<lang>` and keep the file name; otherwise, for a new name with no `/`, the path keeps its number of segments, the page's own segment (the old name, alone or followed by an extension) takes the new name, and every other segment keeps its text |
| Translate.RenameInPath | mkdocs_translations/plugin.py:117-121 | with the intended rename, for a new name with no `/`, the path keeps its number of segments; a segment that is the old name, alone or followed by an extension, takes the new name, and every other segment keeps its text; renaming to the name the page already has changes nothing |
| Translate.PrefixUrl | mkdocs_translations/plugin.py:125-128 | the URL starts with `<lang>/`; the root `.` becomes `<lang>/` and any other URL follows the prefix unchanged |
| Translate.RenameInUrl | mkdocs_translations/plugin.py:130-133 | every occurrence of the quoted old name becomes the quoted new name, and a URL without it is unchanged |
| Translate.StripIndexAsWritten | mkdocs_translations/plugin.py:135-139 | a URL ending with `index/` loses every occurrence of `index/`; any other URL is unchanged |
| Translate.StripIndex | mkdocs_translations/plugin.py:135-139 | a URL whose last directory segment is `index` loses that segment and nothing else; any other URL is unchanged |
| Translate.TranslatePage | mkdocs_translations/plugin.py:90-140 | the copy keeps the source path and kind, has its name stripped of `.<lang>` and its path under `<lang>/`, its absolute path is the site directory joined with it, and its URL is the renamed `<lang>/` URL, less a trailing `index` segment |
| Translate.TranslatePageAsWritten | mkdocs_translations/plugin.py:90-140 | the same for the code as written, whose URL loses every `index/` when it ends with one |
| TaggedPages.TaggedName | mkdocs_translations/plugin.py:110 | the name `<base>.<lang>` becomes `<base>` when the base holds no `.` |
| TaggedPages.TaggedDest | mkdocs_translations/plugin.py:107-122 | with the intended index test and rename, for a base and language with no `/` and a base other than `index`, `<base>.<lang>/index.html` becomes `<lang>/<base>/index.html`, also when `<base>.<lang>` occurs inside `index.html` |
| TaggedPages.FileNameKept | mkdocs_translations/plugin.py:117-121 | with the intended rename of `<base>.<lang>` for a base other than `index`, the file name `index.html` keeps its text |
| TaggedPages.TaggedRename | mkdocs_translations/plugin.py:125-133 | for a base and language with no `/` whose names `quote` leaves as they are, the URL `<base>.<lang>/` becomes `<lang>/<base>/` |
| TaggedPages.TaggedUrl | mkdocs_translations/plugin.py:125-139 | with the intended index step, for a base and language with no `/` whose names `quote` leaves as they are, the final URL of `<base>.<lang>.md` is `<lang>/<base>/` for any base other than `index` |
| TaggedPages.TranslateTaggedPage | mkdocs_translations/plugin.py:90-140 | with the intended index handling, for a top-level page whose base and configured language hold no `.` or `/`, whose base is not `index` and whose names `quote` leaves as they are, the copy of `<base>.<lang>.md` is named `<base>`, written to `<lang>/<base>/index.html` and served at `<lang>/<base>/` |
| TaggedPages.RootDest | mkdocs_translations/plugin.py:107-122 | with the intended index test, for a language with no `/`, `index.<lang>/index.html` becomes `<lang>/index.html` |
| TaggedPages.RootUrl | mkdocs_translations/plugin.py:125-139 | with the intended index step, for a language with no `/` whose names `quote` leaves as they are, the URL of `index.<lang>.md` becomes `<lang>/` |
| TaggedPages.TranslateLanguageRoot | mkdocs_translations/plugin.py:90-140 | with the intended index handling, for a configured language with no `.` or `/` whose names `quote` leaves as they are, the copy of `index.<lang>.md` is the language's root page: written to `<lang>/index.html`, served at `<lang>/` |
| TaggedPages.TaggedNoMarker | mkdocs_translations/plugin.py:107 | for a base and language with no `/`, the destination `<base>.<lang>/index.html` holds no `index.<lang>/` when the base does not end with `index` |
| TaggedPages.TaggedDestAsWritten | mkdocs_translations/plugin.py:107-122 | as written, for a base and language with no `/`, a base not ending with `index`, and a `<base>.<lang>` that does not occur in `/index.html`, `<base>.<lang>/index.html` becomes `<lang>/<base>/index.html` |
| TaggedPages.TaggedUrlAsWritten | mkdocs_translations/plugin.py:125-139 | as written, for a base and language with no `/` whose names `quote` leaves as they are, the final URL of `<base>.<lang>.md` is `<lang>/<base>/` for any base not ending with `index` |
| TaggedPages.TranslateTaggedPageAsWritten | mkdocs_translations/plugin.py:90-140 | as written, for a top-level page whose base and configured language hold no `.` or `/`, whose base does not end with `index`, whose `<base>.<lang>` does not occur in `/index.html`, and whose names `quote` leaves as they are, the copy of `<base>.<lang>.md` is named `<base>`, written to `<lang>/<base>/index.html` and served at `<lang>/<base>/` |
| TaggedPages.RootDestAsWritten | mkdocs_translations/plugin.py:107-116 | as written, for a language with no `/`, `index.<lang>/index.html` becomes `<lang>/index.html` |
| TaggedPages.RootUrlAsWritten | mkdocs_translations/plugin.py:125-139 | as written, for a language with no `/` whose names `quote` leaves as they are, the URL of `index.<lang>.md` becomes `<lang>/` when the language does not end with `index` |
| TaggedPages.TranslateLanguageRootAsWritten | mkdocs_translations/plugin.py:90-140 | as written, for a configured language with no `.` or `/` that does not end with `index`, and whose names `quote` leaves as they are, the copy of `index.<lang>.md` is the language's root page, written to `<lang>/index.html` and served at `<lang>/` |
| TaggedPages.TaggedPageAgrees | mkdocs_translations/plugin.py:90-140 | on a top-level page `<base>.<lang>.md` whose base and configured language hold no `.` or `/`, whose base does not end with `index`, whose `<base>.<lang>` does not occur in `/index.html`, and whose names `quote` leaves as they are, the code as written and the intended rewrite give the same copy |
| TaggedPages.LanguageRootAgrees | mkdocs_translations/plugin.py:90-140 | on `index.<lang>.md` for a configured language with no `.` or `/` that does not end with `index`, and whose names `quote` leaves as they are, the code as written and the intended rewrite give the same language root page |
| Sorting.DepthCountsSlashes | mkdocs_translations/plugin.py:223-230 | the sort key is one more than the number of `/` in the URL |
| Sorting.SortBy | mkdocs_translations/plugin.py:233 | the result is sorted by the key and is a permutation of the input |
| Sorting.SortByStable | mkdocs_translations/plugin.py:233 | the files with one key value keep their input order |
| Sorting.StableSortUnique | mkdocs_translations/plugin.py:233 | two sorted permutations that agree on the order within every key value are equal |
| Sorting.SortByDepth | mkdocs_translations/plugin.py:220-233 | a language's list is sorted by depth, a permutation of its input, and stable |
| Sorting.SortByDepthIsSorted | mkdocs_translations/plugin.py:232-233 | any stable sorted permutation of a list is the one the sort returns, so the sort is Python's `sorted` |
| Sorting.SortByDepthKeeps | mkdocs_translations/plugin.py:233 | sorting loses no file of a language's list |
| Sorting.SortTwo | mkdocs_translations/plugin.py:220-233 | two files out of depth order are swapped |
| Sorting.SortAll | mkdocs_translations/plugin.py:232-233 | every language keeps its list, now sorted by depth |
| Partition.AllLanguages | mkdocs_translations/plugin.py:66 | the languages are the default and the configured ones, and no other |
| Partition.AppendToAll | mkdocs_translations/plugin.py:76-77 | the file is appended to the list of every given language, the other lists are kept, and missing entries are created |
| Partition.AssetStep | mkdocs_translations/plugin.py:73-77 | a file that is not a page goes to the returned list and is appended to the list of every language, and a page changes nothing |
| Partition.PageStep | mkdocs_translations/plugin.py:80-85 | a page joins the returned list only in the default language, and its copy is appended to exactly one list, its language's |
| Partition.PagesOf | mkdocs_translations/plugin.py:82-83 | the pages kept are exactly those resolving to the language |
| Partition.Translations | mkdocs_translations/plugin.py:84-85 | every page of the language has its copy in the list, and every copy comes from a page of the language |
| Partition.LanguagesOf | mkdocs_translations/plugin.py:80-85 | the languages collected are exactly those the pages resolve to |
| Partition.AssetPassMain | mkdocs_translations/plugin.py:73-75 | the first pass appends exactly the assets, in order, to the returned list |
| Partition.AssetPassKeys | mkdocs_translations/plugin.py:76-77 | the first pass creates a list for every language exactly when there is an asset |
| Partition.AssetPassLists | mkdocs_translations/plugin.py:73-77 | the first pass appends the assets, in order, to every language's list |
| Partition.PagePassMain | mkdocs_translations/plugin.py:79-83 | the second pass appends exactly the default-language pages, in order |
| Partition.PagePassKeys | mkdocs_translations/plugin.py:79-85 | the second pass creates lists for exactly the languages the pages resolve to |
| Partition.PagePassLists | mkdocs_translations/plugin.py:84-85 | the second pass appends to each list the copies of its language's pages, in order |
| Partition.PartitionMain | mkdocs_translations/plugin.py:73-83 | for any resolver and translator, the returned list is the assets followed by the default-language pages |
| Partition.PartitionKeys | mkdocs_translations/plugin.py:73-85 | for any resolver and translator, the lists afterwards are the old ones, every language's when there is an asset, and those the pages resolve to |
| Partition.PartitionLists | mkdocs_translations/plugin.py:73-88 | for any resolver and translator, each list is its old contents, the assets and its copies, sorted by depth |
| Partition.PartitionTranslated | mkdocs_translations/plugin.py:79-85 | for any resolver and translator, a page's copy is in the list of the language it resolves to |
| Partition.OnFilesMain | mkdocs_translations/plugin.py:54-88 | `on_files` returns the assets in order followed by the default-language pages in order |
| Partition.OnFilesKeys | mkdocs_translations/plugin.py:66-85 | afterwards a language has a list when it had one, when there is an asset and it is the default or configured, or when a page resolves to it |
| Partition.OnFilesLists | mkdocs_translations/plugin.py:73-88 | each language's list is its old contents, then the assets for the default and configured languages, then the copies `translate_page` as written makes of its pages, sorted by depth |
| Partition.OnFilesAssets | mkdocs_translations/plugin.py:73-77 | every asset is in the returned list and in the list of the default and of every configured language |
| Partition.OnFilesDefaultPages | mkdocs_translations/plugin.py:79-83 | a documentation page is in the returned list exactly when it resolves to the default language |
| Partition.OnFilesTranslated | mkdocs_translations/plugin.py:79-85 | the copy `translate_page` as written makes of every page is in the list of the page's language |
| Partition.OnFilesIntendedTranslated | mkdocs_translations/plugin.py:79-85 | with the intended index handling, the intended copy of every page is in the list of the page's language |
| Partition.PagePassAgree | mkdocs_translations/plugin.py:79-85 | two translators that agree on every page give the same second pass |
| Partition.PartitionAgree | mkdocs_translations/plugin.py:73-88 | the partition depends on the translator only through the copies of the documentation pages |
| Partition.OnFilesAgree | mkdocs_translations/plugin.py:54-88 | when the translator as written and the intended one agree on every discovered page, `on_files` gives the same result with either |
| Partition.OnFilesListsSorted | mkdocs_translations/plugin.py:86 | every list afterwards is sorted by depth, and no list exists for a language that is neither configured, the default, nor already present |
| Navigation.Homepage | mkdocs_translations/plugin.py:214-218 | the homepage is the first file of the list whose URL is `<lang>/`, and there is none exactly when no file has that URL |
| Navigation.OnNav | mkdocs_translations/plugin.py:44-52 | the host's navigation is returned unchanged; existing navigations are kept; otherwise there is one per key of `i18pages`, built from its list, whose homepage is the first file of the list served at `<lang>/`, and none exactly when no file is |
| Navigation.OnNavBuildsOnce | mkdocs_translations/plugin.py:44-45 | once navigations were built from some list, every later call leaves them as they are, whatever lists and builder it gets |
| Navigation.HomepageInList | mkdocs_translations/plugin.py:46-51 | a built navigation's homepage is a file of its language's list served at `<lang>/` |
| Theme.PageLanguage | mkdocs_translations/plugin.py:161-165 | the pick is the first configured language that prefixes the URL with `<lang>/`, and there is none exactly when no configured language does |
| Theme.OnPageContext | mkdocs_translations/plugin.py:161-166 | the theme language changes only under `material`, and only to a configured language that prefixes the URL; under `material` it becomes the picked language whenever there is one |
| Theme.TranslatedPageLanguage | mkdocs_translations/plugin.py:161-165 | under the `material` theme, when no configured language holds `/`, a page under `<lang>/` of a configured language gets that language, whatever the theme language was |
| Site.RootPageIsHomepage | mkdocs_translations/plugin.py:214-218 | with `on_files` as written, when the files hold `index.<lang>.md` and the language does not end with `index`, the navigation built for the language has a homepage served at `<lang>/` |
| Site.RootPageIsHomepageIntended | mkdocs_translations/plugin.py:214-218 | with the intended `on_files`, the same for every configured language |
| Scenarios.SortTest | tests/test_mkdocs_translations.py:12-29 | `lang/theme/` sorts before `lang/theme/b/`, though appended after it |
| Scenarios.GuideFr | mkdocs_translations/plugin.py:90-140 | with the intended rewrite, `guide.fr.md` becomes `guide`, written to `fr/guide/index.html`, served at `fr/guide/` |
| Scenarios.GuideFrAsWritten | mkdocs_translations/plugin.py:90-140 | as written, `guide.fr.md` becomes `guide`, written to `fr/guide/index.html`, served at `fr/guide/` |
| Scenarios.IndexFr | mkdocs_translations/plugin.py:90-140 | with the intended rewrite, `index.fr.md` is written to `fr/index.html` and served at `fr/` |
| Scenarios.IndexFrAsWritten | mkdocs_translations/plugin.py:90-140 | as written, `index.fr.md` is written to `fr/index.html` and served at `fr/` |
| Findings.SuffixIndexDestAsWritten | mkdocs_translations/plugin.py:107-116 | as written, `<p>index.<lang>/index.html` becomes `<lang>/<p>index.html` |
| Findings.SuffixIndexUrlAsWritten | mkdocs_translations/plugin.py:135-139 | as written, `<lang>/<p>index/` becomes `<lang>/<p>` |
| Findings.SuffixIndexPageAsWritten | mkdocs_translations/plugin.py:90-140 | as written, the copy of `<p>index.<lang>.md` lands at `<lang>/<p>index.html` and is served at `<lang>/<p>` |
| Findings.SuffixIndexPage | mkdocs_translations/plugin.py:90-140 | with the intended rewrite, the same copy lands at `<lang>/<p>index/index.html` and is served at `<lang>/<p>index/` |
| Findings.MyIndexFrAsWritten | mkdocs_translations/plugin.py:107-139 | as written, `myindex.fr.md` lands at `fr/myindex.html` and is served at `fr/my` |
| Findings.MyIndexFr | mkdocs_translations/plugin.py:107-139 | with the intended rewrite, `myindex.fr.md` lands at `fr/myindex/index.html` and is served at `fr/myindex/` |
| Findings.XHtDestAsWritten | mkdocs_translations/plugin.py:117-122 | as written, `x.ht/index.html` renamed for the language `ht` becomes `ht/x/indexml` |
| Findings.XHtAsWritten | mkdocs_translations/plugin.py:90-140 | as written, with `ht` configured, the copy of `x.ht.md` is served at `ht/x/` but written to `ht/x/indexml` |
| Findings.XHt | mkdocs_translations/plugin.py:90-140 | with the intended rename, the copy of `x.ht.md` is written to `ht/x/index.html` and served at `ht/x/` |
| Findings.NestedRename | mkdocs_translations/plugin.py:125-133 | the URL of `index/<d>/index.<lang>.md` becomes `<lang>/index/<d>/index/` before the index step |
| Findings.NestedUrlAsWritten | mkdocs_translations/plugin.py:135-139 | as written, `<lang>/index/<d>/index/` becomes `<lang>/<d>/` |
| Findings.NestedUrl | mkdocs_translations/plugin.py:135-139 | with the intended rewrite, `<lang>/index/<d>/index/` becomes `<lang>/index/<d>/` |
| Findings.NestedIndexPageAsWritten | mkdocs_translations/plugin.py:90-140 | as written, the copy of `index/<d>/index.<lang>.md` is served at `<lang>/<d>/` |
| Findings.NestedIndexPageUrl | mkdocs_translations/plugin.py:90-140 | with the intended rewrite, that copy is served at `<lang>/index/<d>/` |
| Findings.IndexFooFr | mkdocs_translations/plugin.py:125-139 | `index/foo/index.fr.md` is served at `fr/foo/` as written and at `fr/index/foo/` as intended |
| Findings.CutCanLeaveMarker | mkdocs_translations/plugin.py:112-116 | as written, cutting `index.<lang>/` out of `index.index.<lang>/<lang>/` leaves a path that holds `index.<lang>/` again |

## Left out

- `on_post_build` is not modelled. It is a driver loop over MkDocs's
  page population, rendering and writing, with no logic of its own. It
  reads `i18navs[language]` for every configured language, so a
  configured language with neither an asset nor a page would raise
  there. That failure lies outside the model.
- `get_navigation`, `_populate_page`, `_build_page`, `run_event` and the
  theme environment are MkDocs internals. Navigation construction is
  the `build` parameter; the others are not modelled.
- `urllib.parse.quote` and the joining of `Path` objects are
  uninterpreted functions in `Translate.Host`. The concrete lemmas
  assume that `quote` leaves their plain names unchanged, as it does.
- The change `on_page_context` makes to the theme configuration is
  modelled as the theme language it leaves behind. The rest of the
  page context is not modelled.
- The plugin's state (`i18pages`, `i18navs`) is passed in and returned.
  There are no mutable fields. `deepcopy` is implicit, because records
  are immutable values.
- `File` equality is structural over the six modelled fields. MkDocs's
  `File.__eq__` compares `src_path`, `abs_src_path` and `url` instead.
  The fields not modelled (`abs_src_path`, `dest_dir`, the attached
  page) play no part in the rules.
- Logging and the validation of the configuration schema are not
  modelled. The `no_translation` option is never read by the code.
- TaggedPages.TranslateLanguageRootAsWritten: covers only languages
  that do not end with `index`. For a language `xindex` the code as
  written cuts the root URL `xindex/index/` to `x`. It also covers only
  languages without `.` or `/`, since the language is read back from
  the URL's last `.`-segment.
- Site.RootPageIsHomepage: says nothing for a language whose code ends
  with `index`. There the code as written also strips the end of the
  language from the root URL, as in the second finding.
- TaggedPages.TaggedDestAsWritten: covers only names `<base>.<lang>`
  that do not occur in `/index.html`. For the others line 118 renames
  the file name too: `x.ht.md` with `ht` configured is written to
  `ht/x/indexml`, the third finding, stated by
  `Findings.XHtAsWritten`. The bases `ex`, `dex` and `ndex` with `ht`,
  and `x` with `html`, fail the same way.
- TaggedPages.TranslateTaggedPageAsWritten: covers only names
  `<base>.<lang>` that do not occur in `/index.html`, for the reason
  just given (`x.ht.md` is written to `ht/x/indexml`), and only bases
  that do not end with `index`. The other bases are the first
  finding, stated by `Findings.SuffixIndexPageAsWritten`. It also covers only bases and
  languages without `.`: line 110 removes every `.<lang>`, not only the
  final one, so `api.details.de.md` is named `apitails`, and
  `xindex.de.de.md` is named `xindex`, whose URL `de/xindex/` the code
  as written then cuts to `de/x`.
- TaggedPages.TranslateTaggedPage: covers only bases and languages
  without `.`, for the same reason: line 110 removes an interior
  `.<lang>` too. Unlike the code as written it needs no condition on
  `index.html`, because the intended rename keeps the file name. The base `index` is the language root, stated by
  `TaggedPages.TranslateLanguageRoot`.
- TaggedPages.TaggedPageAgrees: covers only names `<base>.<lang>`
  that do not occur in `/index.html`: on `x.ht.md` the code as written
  writes `ht/x/indexml` and the intended rename `ht/x/index.html`
  (`Findings.XHtAsWritten`, `Findings.XHt`). It also covers only bases
  and languages without `.`. On `xindex.de.de.md` the name becomes
  `xindex`, and then the code as written serves the copy at `de/x` while the
  intended rewrite serves it at `de/xindex/`.
- Languages are the keys of the `languages` mapping, taken as a
  sequence in the mapping's order. Their display names are never read
  by the code.

## Findings

| source | as written | input that shows it | evidently intended | confidence | as-written member | corrected member |
|---|---|---|---|---|---|---|
| mkdocs_translations/plugin.py:107-116 | a page counts as an index page when `index.<lang>/` occurs anywhere in its destination path, and every occurrence is then cut out | `myindex.fr.md` (destination `myindex.fr/index.html`) is written to `fr/myindex.html` and, through line 135, served at `fr/my` | only a directory segment named `index.<lang>` marks an index page, and only that segment is dropped: `fr/myindex/index.html`, served at `fr/myindex/` | high; not executed | Findings.MyIndexFrAsWritten | Translate.DestPath |
| mkdocs_translations/plugin.py:135-139 | a URL ending with `index/` loses every occurrence of `index/` | `index/foo/index.fr.md` is served at `fr/foo/`, the URL of a different page | only the trailing `index` segment is dropped: `fr/index/foo/` | high; not executed | Findings.NestedIndexPageAsWritten | Translate.StripIndex |
| mkdocs_translations/plugin.py:117-121 | a page that is not an index page has every occurrence of its old name replaced in its destination path, the file name included | `x.ht.md` with `ht` configured (destination `x.ht/index.html`, where `x.ht` also occurs inside `index.html`) is written to `ht/x/indexml` but served at `ht/x/` | only the page's own segment is renamed: `ht/x/index.html` | high; not executed | Findings.XHtAsWritten | Translate.RenameInPath |

`Translate.TranslatePageAsWritten` composes the three as-written
steps, and `Partition.OnFiles` uses it, as line 84 does.
`Translate.TranslatePage` composes the corrected ones (`DestPath`
with `RenameInPath`, and `StripIndex`), and `Partition.OnFilesIntended`
uses it. `Partition.OnFilesAgree` shows the two partitions are equal
whenever the two translators agree on every discovered page.
`TaggedPages.TaggedPageAgrees` and `TaggedPages.LanguageRootAgrees`
show that they do agree on ordinary pages `<base>.<lang>.md` and on
the root page of a language, for bases and languages without `.` or
`/` that do not end with `index`, and for names `<base>.<lang>` that
do not occur in `/index.html`. `Findings.SuffixIndexPage`,
`Findings.MyIndexFr`, `Findings.XHt`, `Findings.NestedIndexPageUrl`
and `Findings.IndexFooFr` state the corrected results on the same
inputs, and `TaggedPages.TaggedDest` states the corrected destination
with no condition on `index.html`. A promise one might read into
lines 112-116 fails for the code as written: that the cut leaves no
`index.<lang>/` behind. `Findings.CutCanLeaveMarker` shows a path where
it does. For `Translate.DestPath` the promise holds: no directory
segment of the result is `index.<lang>`.

=== FILE: findings.dfy ===
/**
  The inputs on which the translator's substring tests for `index`, and
  its replace of the page name in the destination path, go wrong, next
  to what the segment-wise rewrites give on the same pages.
*/
module Findings {
  import opened Strings
  import opened Pages
  import opened Language
  import opened Translate
  import opened TaggedPages

  /** The destination of `<p>index.<lang>.md` holds the marker right after `<p>`. */
  lemma MarkerAfterPrefix(p: string, lang: string)
    ensures Tagged(p + "index", lang) + "/index.html" == p + (IndexMarker(lang) + "index.html")
    ensures Contains(Tagged(p + "index", lang) + "/index.html", IndexMarker(lang))
  {
    var marker := IndexMarker(lang);
    var dest := Tagged(p + "index", lang) + "/index.html";
    assert dest == p + (marker + "index.html");
    assert dest[|p|..|p| + |marker|] == marker;
    assert OccursAt(dest, marker, |p|);
  }

  /** Cutting the marker out of `<p><marker>index.html`. */
  lemma CutMarker(p: string, lang: string)
    requires 'i' !in p
    ensures ReplaceAll(p + (IndexMarker(lang) + "index.html"), IndexMarker(lang), "") == p + "index.html"
  {
    MarkerHead(lang);
    ReplaceAllSkips(p, IndexMarker(lang) + "index.html", IndexMarker(lang), "");
    RootMarkerCut(lang);
  }

  lemma MarkerHead(lang: string)
    ensures IndexMarker(lang)[0] == 'i'
  {
  }

  /**
    Lines 107 and 112-116 as written on `<p>index.<lang>.md`: the
    marker `index.<lang>/` is found inside the page's own directory
    name, so the directory is cut out and `<p>` is glued to the file
    name.
  */
  lemma SuffixIndexDestAsWritten(p: string, lang: string)
    requires 'i' !in p
    ensures DestPathAsWritten(Tagged(p + "index", lang) + "/index.html", lang, Tagged(p + "index", lang), p + "index")
      == lang + "/" + (p + "index.html")
  {
    MarkerAfterPrefix(p, lang);
    DestPathAsWrittenCuts(Tagged(p + "index", lang) + "/index.html", lang, Tagged(p + "index", lang), p + "index");
    CutMarker(p, lang);
  }

  /**
    Lines 135-139 as written on the URL `<lang>/<p>index/`: it ends
    with `index/`, so that text is removed, and with it the end of the
    page's own directory name.
  */
  lemma SuffixIndexUrlAsWritten(p: string, lang: string)
    requires 'i' !in p && 'i' !in lang
    ensures StripIndexAsWritten(lang + "/" + (p + "index") + "/") == lang + "/" + p
  {
    var head := lang + "/" + p;
    assert lang + "/" + (p + "index") + "/" == head + "index/";
    assert 'i' !in head;
    ReplaceAllSkips(head, "index/", "index/", "");
    assert "index/" == "index/" + "";
    ReplaceAllAtFront("index/", "", "");
  }

  /**
    Lines 90-140 as written on `<p>index.<lang>.md` (for instance
    `myindex.fr.md`): the copy is written to `<lang>/<p>index.html`
    and served at `<lang>/<p>`.
  */
  lemma SuffixIndexPageAsWritten(cfg: Config, host: Host, p: string, lang: string, abs: string)
    requires lang in cfg.languages && '.' !in lang && '/' !in lang && 'i' !in lang
    requires p != [] && '.' !in p && '/' !in p && 'i' !in p
    requires host.quote(Tagged(p + "index", lang)) == Tagged(p + "index", lang)
    requires host.quote(p + "index") == p + "index"
    ensures TranslatePageAsWritten(cfg, host, TaggedPage(p + "index", lang, abs)).destPath
      == lang + "/" + (p + "index.html")
    ensures TranslatePageAsWritten(cfg, host, TaggedPage(p + "index", lang, abs)).url
      == lang + "/" + p
  {
    SuffixBaseFree(p);
    GetLangOfTaggedUrl(cfg, p + "index", lang);
    TaggedName(p + "index", lang);
    TranslatePageAsWrittenSteps(cfg, host, TaggedPage(p + "index", lang, abs), lang, p + "index");
    SuffixIndexDestAsWritten(p, lang);
    TaggedRename(host, p + "index", lang);
    SuffixIndexUrlAsWritten(p, lang);
  }

  /** `<p>index` holds no `.` and no `/` when `<p>` holds none. */
  lemma SuffixBaseFree(p: string)
    requires '.' !in p && '/' !in p
    ensures '.' !in p + "index" && '/' !in p + "index"
  {
    IndexChars();
    NotInConcat(p, "index", '.');
    NotInConcat(p, "index", '/');
  }

  /**
    The same page with the segment-wise rewrites: written to
    `<lang>/<p>index/index.html` and served at `<lang>/<p>index/`.
  */
  lemma SuffixIndexPage(cfg: Config, host: Host, p: string, lang: string, abs: string)
    requires lang in cfg.languages && '.' !in lang && '/' !in lang
    requires p != [] && '.' !in p && '/' !in p
    requires host.quote(Tagged(p + "index", lang)) == Tagged(p + "index", lang)
    requires host.quote(p + "index") == p + "index"
    ensures TranslatePage(cfg, host, TaggedPage(p + "index", lang, abs)).destPath
      == lang + "/" + (p + "index") + "/index.html"
    ensures TranslatePage(cfg, host, TaggedPage(p + "index", lang, abs)).url
      == lang + "/" + (p + "index") + "/"
  {
    assert |p + "index"| != |"index"|;
    TranslateTaggedPage(cfg, host, p + "index", lang, abs);
  }

  /**
    The page record of `index/<d>/index.<lang>.md`, the index page of a
    directory `<d>` inside a directory named `index`.
  */
  function NestedIndexPage(d: string, lang: string, abs: string): File
  {
    var dir := "index/" + (d + "/");
    File(dir + Tagged("index", lang) + ".md", IndexDir(lang),
         dir + (IndexDir(lang) + "/index.html"), abs, "index/" + (d + "/" + (IndexDir(lang) + "/")), true)
  }

  /** Lines 125-133 on the nested index page: `index.<lang>` becomes `index`. */
  lemma NestedRename(host: Host, d: string, lang: string)
    requires '/' !in d && '/' !in lang && |d| < |IndexDir(lang)|
    requires host.quote(IndexDir(lang)) == IndexDir(lang) && host.quote("index") == "index"
    ensures RenameInUrl(host, PrefixUrl(lang, "index/" + (d + "/" + (IndexDir(lang) + "/"))), IndexDir(lang), "index")
      == lang + "/" + ("index/" + (d + "/" + "index/"))
  {
    var t := IndexDir(lang);
    var rest2 := d + "/" + (t + "/");
    var rest1 := "index/" + rest2;
    assert PrefixUrl(lang, rest1) == lang + "/" + rest1;
    assert '/' !in t;
    SeparatorBlocks(lang, '/', rest1, t);
    ReplaceAllSkipsFree(lang + "/", rest1, t, "index");
    assert rest1 == "index" + ['/'] + rest2;
    SeparatorBlocks("index", '/', rest2, t);
    ReplaceAllSkipsFree("index/", rest2, t, "index");
    SeparatorBlocks(d, '/', t + "/", t);
    ReplaceAllSkipsFree(d + "/", t + "/", t, "index");
    ReplaceAllAtFront(t, "/", "index");
    IndexSlashSpelled();
  }

  /** Removing every `<t>` from `<x><t><y><t>` when neither `<x>` nor `<y>` holds the first character of `<t>`. */
  lemma CutBoth(x: string, y: string, t: string)
    requires |t| > 0 && t[0] !in x && t[0] !in y
    ensures ReplaceAll(x + (t + (y + t)), t, "") == x + y
  {
    ReplaceAllSkips(x, t + (y + t), t, "");
    ReplaceAllAtFront(t, y + t, "");
    assert t == t + [];
    ReplaceAllSkips(y, t, t, "");
    ReplaceAllAtFront(t, [], "");
    assert ReplaceAll([], t, "") == [];
    assert ReplaceAll(t, t, "") == [];
    assert ReplaceAll(y + t, t, "") == y;
    assert ReplaceAll(t + (y + t), t, "") == y;
  }

  /**
    Lines 135-139 as written on `<lang>/index/<d>/index/`: every
    `index/` goes, the directory named `index` with it.
  */
  lemma NestedUrlAsWritten(d: string, lang: string)
    requires 'i' !in d && 'i' !in lang
    ensures StripIndexAsWritten(lang + "/" + ("index/" + (d + "/" + "index/"))) == lang + "/" + (d + "/")
  {
    var url := lang + "/" + ("index/" + (d + "/" + "index/"));
    assert EndsWith(url, "index/");
    assert "index/"[0] == 'i';
    CutBoth(lang + "/", d + "/", "index/");
  }

  /** Lines 135-139 as intended on `<lang>/index/<d>/index/`: only the last segment goes. */
  lemma NestedUrl(d: string, lang: string)
    ensures StripIndex(lang + "/" + ("index/" + (d + "/" + "index/"))) == lang + "/" + ("index/" + (d + "/"))
  {
    var url := lang + "/" + ("index/" + (d + "/" + "index/"));
    assert url == lang + "/" + ("index/" + (d + "/")) + "index/";
    assert url[|url| - 7] == '/';
  }

  /**
    Lines 90-140 as written on `index/<d>/index.<lang>.md` (for instance
    `index/foo/index.fr.md`): the copy is served at `<lang>/<d>/`, the
    URL of a page that has lost its `index` directory.
  */
  lemma NestedIndexPageAsWritten(cfg: Config, host: Host, d: string, lang: string, abs: string)
    requires lang in cfg.languages && '.' !in lang && '/' !in lang && 'i' !in lang
    requires '/' !in d && 'i' !in d && |d| < |IndexDir(lang)|
    requires host.quote(IndexDir(lang)) == IndexDir(lang) && host.quote("index") == "index"
    ensures TranslatePageAsWritten(cfg, host, NestedIndexPage(d, lang, abs)).url == lang + "/" + (d + "/")
  {
    var page := NestedIndexPage(d, lang, abs);
    NestedLang(cfg, d, lang, abs);
    IndexChars();
    TaggedName("index", lang);
    assert StripLangSuffix(page.name, lang) == "index";
    TranslatePageAsWrittenSteps(cfg, host, page, lang, "index");
    NestedRename(host, d, lang);
    NestedUrlAsWritten(d, lang);
  }

  /** The same page with the segment-wise rewrite: served at `<lang>/index/<d>/`. */
  lemma NestedIndexPageUrl(cfg: Config, host: Host, d: string, lang: string, abs: string)
    requires lang in cfg.languages && '.' !in lang && '/' !in lang
    requires '/' !in d && |d| < |IndexDir(lang)|
    requires host.quote(IndexDir(lang)) == IndexDir(lang) && host.quote("index") == "index"
    ensures TranslatePage(cfg, host, NestedIndexPage(d, lang, abs)).url == lang + "/" + ("index/" + (d + "/"))
  {
    var page := NestedIndexPage(d, lang, abs);
    NestedLang(cfg, d, lang, abs);
    IndexChars();
    TaggedName("index", lang);
    assert StripLangSuffix(page.name, lang) == "index";
    TranslatePageSteps(cfg, host, page, lang, "index");
    NestedRename(host, d, lang);
    NestedUrl(d, lang);
  }

  /** The language of the nested index page is the one its name carries. */
  lemma NestedLang(cfg: Config, d: string, lang: string, abs: string)
    requires lang in cfg.languages && '.' !in lang && '/' !in lang
    ensures GetLang(cfg, NestedIndexPage(d, lang, abs).url) == lang
  {
    RegroupSpelled("index/", d + "/", "index", ".", lang, "/");
    GetLangOfTaggedUrl(cfg, "index/" + (d + "/") + "index", lang);
  }

  lemma RegroupSpelled(a: string, b: string, c: string, e: string, f: string, g: string)
    ensures a + (b + ((c + e + f) + g)) == ((a + b) + c) + e + f + g
  {
  }

  /**
    `myindex.fr.md` on a site translated into French, as written: the
    copy lands at `fr/myindex.html` and is served at `fr/my`.
  */
  lemma MyIndexFrAsWritten(cfg: Config, host: Host, abs: string)
    requires "fr" in cfg.languages
    requires host.quote("myindex.fr") == "myindex.fr" && host.quote("myindex") == "myindex"
    ensures TranslatePageAsWritten(cfg, host, TaggedPage("myindex", "fr", abs)).destPath == "fr/myindex.html"
    ensures TranslatePageAsWritten(cfg, host, TaggedPage("myindex", "fr", abs)).url == "fr/my"
  {
    MyIndexNames();
    SuffixIndexPageAsWritten(cfg, host, "my", "fr", abs);
    MyIndexPaths();
  }

  /**
    `myindex.fr.md` with the segment-wise rewrites: the copy lands at
    `fr/myindex/index.html` and is served at `fr/myindex/`.
  */
  lemma MyIndexFr(cfg: Config, host: Host, abs: string)
    requires "fr" in cfg.languages
    requires host.quote("myindex.fr") == "myindex.fr" && host.quote("myindex") == "myindex"
    ensures TranslatePage(cfg, host, TaggedPage("myindex", "fr", abs)).destPath == "fr/myindex/index.html"
    ensures TranslatePage(cfg, host, TaggedPage("myindex", "fr", abs)).url == "fr/myindex/"
  {
    MyIndexNames();
    SuffixIndexPage(cfg, host, "my", "fr", abs);
    MyIndexPaths();
  }

  /**
    Lines 117-121 as written on `x.ht.md` on a site translated into
    Haitian Creole: the name `x.ht` also occurs inside the file name
    `index.html`, and the replace renames it there too.
  */
  lemma XHtDestAsWritten()
    ensures DestPathAsWritten(Tagged("x", "ht") + "/index.html", "ht", Tagged("x", "ht"), "x") == "ht/x/indexml"
  {
    TaggedNoMarker("x", "ht");
    DestPathAsWrittenRenames(Tagged("x", "ht") + "/index.html", "ht", Tagged("x", "ht"), "x");
    XHtRename();
    XHtSpelled();
  }

  lemma XHtRename()
    ensures ReplaceAll(Tagged("x", "ht") + "/index.html", Tagged("x", "ht"), "x") == "x/indexml"
  {
    var name := Tagged("x", "ht");
    XHtSpelled();
    AbsentChar("ml", name, 0);
    RenameTwice(name, "/inde", "ml", "x");
  }

  /** The destination of `x.ht.md` holds the name twice, the second time inside `index.html`. */
  lemma XHtSpelled()
    ensures Tagged("x", "ht") + "/index.html" == Tagged("x", "ht") + ("/inde" + (Tagged("x", "ht") + "ml"))
    ensures "x" + ("/inde" + ("x" + "ml")) == "x/indexml"
    ensures "ht" + "/" + "x/indexml" == "ht/x/indexml"
    ensures Tagged("x", "ht")[0] !in "/inde"
  {
  }

  /** Replacing `t` in `<t><a><t><b>` when `a` holds no first character of `t` and `b` holds no `t`. */
  lemma RenameTwice(t: string, a: string, b: string, repl: string)
    requires |t| > 0 && t[0] !in a && !Contains(b, t)
    ensures ReplaceAll(t + (a + (t + b)), t, repl) == repl + (a + (repl + b))
  {
    ReplaceAllAtFront(t, a + (t + b), repl);
    ReplaceAllSkips(a, t + b, t, repl);
    ReplaceAllAtFront(t, b, repl);
  }

  /**
    `x.ht.md` with `translate_page` as written: the copy is served at
    `ht/x/` but written to `ht/x/indexml`, a file that is not the
    directory's index page.
  */
  lemma XHtAsWritten(cfg: Config, host: Host, abs: string)
    requires "ht" in cfg.languages
    requires host.quote("x.ht") == "x.ht" && host.quote("x") == "x"
    ensures TranslatePageAsWritten(cfg, host, TaggedPage("x", "ht", abs)).destPath == "ht/x/indexml"
    ensures TranslatePageAsWritten(cfg, host, TaggedPage("x", "ht", abs)).url == "ht/x/"
  {
    XHtNames();
    GetLangOfTaggedUrl(cfg, "x", "ht");
    TaggedName("x", "ht");
    TranslatePageAsWrittenSteps(cfg, host, TaggedPage("x", "ht", abs), "ht", "x");
    XHtDestAsWritten();
    TaggedUrlAsWritten(host, "x", "ht");
  }

  /**
    `x.ht.md` with the segment-wise rename: the copy is written to
    `ht/x/index.html` and served at `ht/x/`.
  */
  lemma XHt(cfg: Config, host: Host, abs: string)
    requires "ht" in cfg.languages
    requires host.quote("x.ht") == "x.ht" && host.quote("x") == "x"
    ensures TranslatePage(cfg, host, TaggedPage("x", "ht", abs)).destPath == "ht/x/index.html"
    ensures TranslatePage(cfg, host, TaggedPage("x", "ht", abs)).url == "ht/x/"
  {
    XHtNames();
    TranslateTaggedPage(cfg, host, "x", "ht", abs);
  }

  lemma XHtNames()
    ensures Tagged("x", "ht") == "x.ht"
    ensures '.' !in "x" && '/' !in "x" && "x" != "index" && !EndsWith("x", "index")
    ensures '.' !in "ht" && '/' !in "ht"
    ensures "ht" + "/" + "x" + "/index.html" == "ht/x/index.html"
    ensures "ht" + "/" + "x" + "/" == "ht/x/"
  {
  }

  lemma MyIndexPaths()
    ensures "fr" + "/" + ("my" + "index.html") == "fr/myindex.html"
    ensures "fr" + "/" + "my" == "fr/my"
    ensures "fr" + "/" + ("my" + "index") + "/index.html" == "fr/myindex/index.html"
    ensures "fr" + "/" + ("my" + "index") + "/" == "fr/myindex/"
  {
  }

  lemma MyIndexNames()
    ensures "my" + "index" == "myindex"
    ensures Tagged("myindex", "fr") == "myindex.fr"
  {
  }

  /**
    `index/foo/index.fr.md` on a site translated into French: as
    written the copy is served at `fr/foo/`; the segment-wise rewrite
    keeps it at `fr/index/foo/`.
  */
  lemma IndexFooFr(cfg: Config, host: Host, abs: string)
    requires "fr" in cfg.languages
    requires host.quote("index.fr") == "index.fr" && host.quote("index") == "index"
    ensures TranslatePageAsWritten(cfg, host, NestedIndexPage("foo", "fr", abs)).url == "fr/foo/"
    ensures TranslatePage(cfg, host, NestedIndexPage("foo", "fr", abs)).url == "fr/index/foo/"
  {
    IndexFooNames();
    NestedIndexPageAsWritten(cfg, host, "foo", "fr", abs);
    NestedIndexPageUrl(cfg, host, "foo", "fr", abs);
  }

  lemma IndexFooNames()
    ensures IndexDir("fr") == "index.fr"
    ensures |IndexDir("fr")| == 8
    ensures "fr" + "/" + ("foo" + "/") == "fr/foo/"
    ensures "fr" + "/" + ("index/" + ("foo" + "/")) == "fr/index/foo/"
  {
  }

  /**
    Lines 112-116 as written do not leave a path free of the marker:
    cutting the marker out of `index.index.<lang>/<lang>/` glues
    `index.` to `<lang>/`, and the marker is there again.
  */
  lemma CutCanLeaveMarker(lang: string, oldName: string, newName: string)
    requires lang != [] && lang[0] != 'i'
    ensures
      var dest := "index." + (IndexMarker(lang) + (lang + "/"));
      && Contains(dest, IndexMarker(lang))
      && Contains(DestPathAsWritten(dest, lang, oldName, newName)[|lang| + 1..], IndexMarker(lang))
  {
    var m := IndexMarker(lang);
    var dest := "index." + (m + (lang + "/"));
    assert OccursAt(dest, m, 6);
    CutIndexDot(lang);
    DestPathAsWrittenCuts(dest, lang, oldName, newName);
    assert OccursAt(m, m, 0);
  }

  /** Cutting the marker out of `index.index.<lang>/<lang>/` leaves the marker. */
  lemma CutIndexDot(lang: string)
    requires lang != [] && lang[0] != 'i'
    ensures ReplaceAll("index." + (IndexMarker(lang) + (lang + "/")), IndexMarker(lang), "") == IndexMarker(lang)
  {
    NoMarkerInIndexDot(lang);
    MarkerSpelled(lang);
    CutGlued("index.", lang + "/", IndexMarker(lang));
  }

  lemma MarkerSpelled(lang: string)
    ensures IndexMarker(lang) == "index." + (lang + "/")
  {
  }

  /** Cutting `m` out of `<x><m><t>` when `m` is `<x><t>` and starts nowhere in `<x>` gives `m` back. */
  lemma CutGlued(x: string, t: string, m: string)
    requires m == x + t && |t| < |m|
    requires forall i :: 0 <= i < |x| ==> !OccursAt(x + (m + t), m, i)
    ensures ReplaceAll(x + (m + t), m, "") == m
  {
    ReplaceAllSkipsFree(x, m + t, m, "");
    ReplaceAllAtFront(m, t, "");
    assert ReplaceAll(t, m, "") == t;
    assert "" + t == t;
  }

  /** No occurrence of the marker starts inside the leading `index.`. */
  lemma NoMarkerInIndexDot(lang: string)
    requires lang != [] && lang[0] != 'i'
    ensures forall i :: 0 <= i < |"index."| ==> !OccursAt("index." + (IndexMarker(lang) + (lang + "/")), IndexMarker(lang), i)
  {
    var m := IndexMarker(lang);
    var dest := "index." + (m + (lang + "/"));
    assert m[0] == 'i' && m[6] == lang[0];
    assert dest[6] == 'i';
    MismatchAt(dest, m, 0, 6);
    forall i | 1 <= i < 6
      ensures !OccursAt(dest, m, i)
    {
      assert dest[i] == "index."[i];
      FirstCharMismatch(dest, m, i);
    }
  }
}

=== FILE: language.dfy ===
/** The plugin configuration and the language resolver `_get_lang`. */
module Language {
  import opened Strings

  /**
    The plugin configuration: the keys of the `languages` mapping, in
    the mapping's order, and `default_language`.
  */
  datatype Config = Config(languages: seq<string>, defaultLanguage: string)

  /**
    The language tag a URL carries: what follows its last `.`, with
    every leading and trailing `/` stripped.
  */
  function UrlTag(url: string): (tag: string)
    ensures '.' !in tag
    ensures tag == [] || (tag[0] != '/' && tag[|tag| - 1] != '/')
  {
    Strip(AfterLast(url, '.'), '/')
  }

  /**
    The language of a page: its URL's tag when that tag is a configured
    language, the default language otherwise. Never fails.
  */
  function GetLang(cfg: Config, url: string): (lang: string)
    ensures lang in cfg.languages || lang == cfg.defaultLanguage
    ensures UrlTag(url) in cfg.languages ==> lang == UrlTag(url)
    ensures UrlTag(url) !in cfg.languages ==> lang == cfg.defaultLanguage
  {
    var tag := UrlTag(url);
    if tag in cfg.languages then tag else cfg.defaultLanguage
  }

  /** A directory URL `<base>.<lang>/` of a configured language resolves to that language. */
  lemma GetLangOfTaggedUrl(cfg: Config, base: string, lang: string)
    requires lang in cfg.languages
    requires '.' !in lang && '/' !in lang
    ensures GetLang(cfg, base + "." + lang + "/") == lang
  {
    var url := base + "." + lang + "/";
    assert url == base + ['.'] + (lang + "/");
    AfterLastOf(base, '.', lang + "/");
    StripOneTrailing(lang, '/');
  }

  /**
    A directory URL `<base>.<x>/` whose tag `x` is not a configured
    language resolves to the default language.
  */
  lemma GetLangUnconfiguredDir(cfg: Config, base: string, x: string)
    requires x !in cfg.languages
    requires '.' !in x && '/' !in x
    ensures GetLang(cfg, base + "." + x + "/") == cfg.defaultLanguage
  {
    var url := base + "." + x + "/";
    assert url == base + ['.'] + (x + "/");
    AfterLastOf(base, '.', x + "/");
    StripOneTrailing(x, '/');
  }

  /** A tag-free string followed by one `c` strips back to itself. */
  lemma StripOneTrailing(t: string, c: char)
    requires c !in t
    ensures Strip(t + [c], c) == t
  {
    var s := t + [c];
    if t == [] {
      assert LStrip(s, c) == LStrip([], c);
    } else {
      assert LStrip(s, c) == s;
      assert s[..|s| - 1] == t;
      assert RStrip(s, c) == RStrip(t, c);
    }
  }

  /**
    A URL whose tag is not a configured language (an untranslated page,
    the site root `.`, or a non-directory URL ending in `.html`)
    belongs to the default language.
  */
  lemma GetLangUnrecognised(cfg: Config, url: string)
    requires AfterLast(url, '.') !in cfg.languages
    requires '/' !in AfterLast(url, '.')
    ensures GetLang(cfg, url) == cfg.defaultLanguage
  {
    var t := AfterLast(url, '.');
    assert LStrip(t, '/') == t;
    assert RStrip(t, '/') == t;
  }
}

=== FILE: navigation.dfy ===
/**
  The navigation hook `on_nav` and the homepage lookup
  `_get_lang_homepage`. Building a navigation from a file list is done by
  the host and is a parameter here.
*/
module Navigation {
  import opened Wrappers
  import opened Pages

  /** A language's navigation and the homepage set on it (lines 48-51). */
  datatype LangNav<N> = LangNav(nav: N, homepage: Option<File>)

  /**
    Lines 214-218: the first file of a language's list whose URL is
    `<lang>/`, if there is one.
  */
  function Homepage(files: seq<File>, lang: string): (r: Option<File>)
    ensures r.None? <==> forall f :: f in files ==> f.url != lang + "/"
    ensures r.Some? ==>
      exists i :: 0 <= i < |files| && files[i] == r.value
        && r.value.url == lang + "/"
        && forall j :: 0 <= j < i ==> files[j].url != lang + "/"
  {
    if files == [] then None
    else if files[0].url == lang + "/" then Some(files[0])
    else Homepage(files[1..], lang)
  }

  /**
    Lines 44-52: the navigation the host passed in, always returned
    as it is, and the per-language navigations afterwards. They are
    built, one per language that has a list, only while there are none
    yet.
  */
  function OnNav<N>(nav: N, navs: map<string, LangNav<N>>, pages: map<string, seq<File>>,
                    build: seq<File> -> N): (r: (N, map<string, LangNav<N>>))
    ensures r.0 == nav
    ensures |navs| > 0 ==> r.1 == navs
    ensures |navs| == 0 ==> r.1.Keys == pages.Keys
    ensures |navs| == 0 ==> forall l :: l in pages ==> r.1[l].nav == build(pages[l])
    ensures |navs| == 0 ==> forall l :: l in pages ==> r.1[l].homepage == Homepage(pages[l], l)
    ensures |navs| == 0 ==> forall l :: l in pages ==>
      (r.1[l].homepage.None? <==> forall f :: f in pages[l] ==> f.url != l + "/")
  {
    if |navs| > 0 then (nav, navs)
    else (nav, map l | l in pages :: LangNav(build(pages[l]), Homepage(pages[l], l)))
  }

  /**
    The navigations are built once: after a call that had a file list
    to work from, every later call, with any lists and any builder,
    leaves them as they are.
  */
  lemma OnNavBuildsOnce<N>(nav: N, navs: map<string, LangNav<N>>, pages: map<string, seq<File>>,
                           build: seq<File> -> N,
                           nav2: N, pages2: map<string, seq<File>>, build2: seq<File> -> N)
    requires |navs| > 0 || |pages| > 0
    ensures OnNav(nav2, OnNav(nav, navs, pages, build).1, pages2, build2).1 == OnNav(nav, navs, pages, build).1
  {
    if |navs| == 0 {
      var k :| k in pages;
      assert k in OnNav(nav, navs, pages, build).1;
    }
  }

  /**
    Every homepage a built navigation carries is a file of that
    language's list whose URL is `<lang>/`.
  */
  lemma HomepageInList<N>(nav: N, pages: map<string, seq<File>>, build: seq<File> -> N, l: string)
    requires l in pages
    ensures
      var built := OnNav(nav, map[], pages, build).1;
      built[l].homepage.Some? ==>
        built[l].homepage.value in pages[l] && built[l].homepage.value.url == l + "/"
  {
  }
}

=== FILE: pages.dfy ===
/** The host's file record, as far as the plugin reads and writes it. */
module Pages {

  /**
    One discovered file. `isDoc` is the host's classification of the
    file as a documentation page (a Markdown source) rather than an
    asset such as a stylesheet, script or image.
  */
  datatype File = File(
    srcPath: string,
    name: string,
    destPath: string,
    absDestPath: string,
    url: string,
    isDoc: bool)

  /** The host's `files.documentation_pages()`: the pages, in order. */
  function DocumentationPages(files: seq<File>): (docs: seq<File>)
    ensures |docs| <= |files|
    ensures forall f :: f in docs <==> f in files && f.isDoc
  {
    if files == [] then []
    else (if files[0].isDoc then [files[0]] else []) + DocumentationPages(files[1..])
  }

  /** The files that are not documentation pages, in order. */
  function Assets(files: seq<File>): (assets: seq<File>)
    ensures |assets| <= |files|
    ensures forall f :: f in assets <==> f in files && !f.isDoc
  {
    if files == [] then []
    else (if files[0].isDoc then [] else [files[0]]) + Assets(files[1..])
  }
}

=== FILE: partition.dfy ===
/**
  The file partitioner `on_files`: assets go to the list returned to the
  host and to every language's list; each documentation page goes to
  the returned list when it is in the default language, and its
  translated copy goes to its own language's list. The per-language
  lists are then sorted by URL depth.
*/
module Partition {
  import opened Pages
  import opened Language
  import opened Translate
  import opened Sorting

  /**
    The list returned to the host (`main_files`) and the plugin's
    per-language lists (`i18pages`).
  */
  datatype FileSets = FileSets(main: seq<File>, pages: map<string, seq<File>>)

  /** Reading `i18pages[lang]`: a language with no entry has the empty list. */
  function Lookup(pages: map<string, seq<File>>, lang: string): seq<File>
  {
    if lang in pages then pages[lang] else []
  }

  /** Line 66: the default language together with the configured ones. */
  function AllLanguages(cfg: Config): (langs: set<string>)
    ensures forall l :: l in langs <==> l == cfg.defaultLanguage || l in cfg.languages
  {
    {cfg.defaultLanguage} + set l | l in cfg.languages
  }

  /** Lines 76-77: `f` appended to the list of every language in `langs`. */
  function AppendToAll(pages: map<string, seq<File>>, langs: set<string>, f: File): (r: map<string, seq<File>>)
    ensures r.Keys == pages.Keys + langs
    ensures forall k :: Lookup(r, k) == Lookup(pages, k) + (if k in langs then [f] else [])
  {
    map k | k in pages.Keys + langs :: Lookup(pages, k) + (if k in langs then [f] else [])
  }

  /** Lines 73-77: the first pass, over every file that is not a documentation page. */
  function AssetPass(langs: set<string>, docs: seq<File>, files: seq<File>, acc: FileSets): FileSets
    decreases |files|
  {
    if files == [] then acc
    else AssetPass(langs, docs, files[1..], AssetStep(langs, docs, files[0], acc))
  }

  /** Lines 74-77 for one file: an asset goes to `main` and to every language's list. */
  function AssetStep(langs: set<string>, docs: seq<File>, f: File, acc: FileSets): (r: FileSets)
    ensures r.main == acc.main + (if f in docs then [] else [f])
    ensures r.pages.Keys == acc.pages.Keys + (if f in docs then {} else langs)
    ensures forall k :: Lookup(r.pages, k) == Lookup(acc.pages, k) + (if f !in docs && k in langs then [f] else [])
  {
    if f !in docs then FileSets(acc.main + [f], AppendToAll(acc.pages, langs, f)) else acc
  }

  /** The page translator the partitioner applies (line 84), as written. */
  function Translator(cfg: Config, host: Host): File -> File
  {
    (p: File) => TranslatePageAsWritten(cfg, host, p)
  }

  /** The same translator with the intended index handling. */
  function IntendedTranslator(cfg: Config, host: Host): File -> File
  {
    (p: File) => TranslatePage(cfg, host, p)
  }

  /** The language resolver the partitioner applies (line 80). */
  function Router(cfg: Config): File -> string
  {
    (p: File) => GetLang(cfg, p.url)
  }

  /** Lines 79-85: the second pass, over the documentation pages. */
  function PagePass(default: string, route: File -> string, translate: File -> File, docs: seq<File>, acc: FileSets): FileSets
    decreases |docs|
  {
    if docs == [] then acc
    else PagePass(default, route, translate, docs[1..], PageStep(default, route, translate, docs[0], acc))
  }

  /** Lines 80-85 for one page: the copy goes to exactly one language's list. */
  function PageStep(default: string, route: File -> string, translate: File -> File, p: File, acc: FileSets): (r: FileSets)
    ensures r.main == acc.main + (if route(p) == default then [p] else [])
    ensures r.pages.Keys == acc.pages.Keys + {route(p)}
    ensures Lookup(r.pages, route(p)) == Lookup(acc.pages, route(p)) + [translate(p)]
    ensures forall k :: k != route(p) ==> Lookup(r.pages, k) == Lookup(acc.pages, k)
  {
    var lang := route(p);
    var main := if lang == default then acc.main + [p] else acc.main;
    FileSets(main, acc.pages[lang := Lookup(acc.pages, lang) + [translate(p)]])
  }

  /** The pages that resolve to `lang`, in order. */
  function PagesOf(route: File -> string, docs: seq<File>, lang: string): (r: seq<File>)
    ensures forall p :: p in r <==> p in docs && route(p) == lang
  {
    if docs == [] then []
    else (if route(docs[0]) == lang then [docs[0]] else []) + PagesOf(route, docs[1..], lang)
  }

  /** The translated copies of the pages that resolve to `lang`, in order. */
  function Translations(route: File -> string, translate: File -> File, docs: seq<File>, lang: string): (r: seq<File>)
    ensures forall p :: p in docs && route(p) == lang ==> translate(p) in r
    ensures forall t :: t in r ==> exists p :: p in docs && route(p) == lang && t == translate(p)
  {
    if docs == [] then []
    else
      (if route(docs[0]) == lang then [translate(docs[0])] else [])
      + Translations(route, translate, docs[1..], lang)
  }

  /** The languages the pages resolve to. */
  function LanguagesOf(route: File -> string, docs: seq<File>): (r: set<string>)
    ensures forall p :: p in docs ==> route(p) in r
    ensures forall l :: l in r ==> exists p :: p in docs && route(p) == l
  {
    if docs == [] then {}
    else {route(docs[0])} + LanguagesOf(route, docs[1..])
  }

  /**
    Lines 66-88 for any language resolver and translator: the two passes,
    then every language's list sorted.
  */
  function PartitionFiles(default: string, langs: set<string>, route: File -> string, translate: File -> File,
                          pages: map<string, seq<File>>, files: seq<File>): FileSets
  {
    var docs := DocumentationPages(files);
    var afterPages := PagePass(default, route, translate, docs, AssetPass(langs, docs, files, FileSets([], pages)));
    FileSets(afterPages.main, SortAll(afterPages.pages))
  }

  /**
    `on_files` (lines 54-88): given the per-language lists so far and the
    discovered files, the list returned to the host and the new
    per-language lists.
  */
  function OnFiles(cfg: Config, host: Host, pages: map<string, seq<File>>, files: seq<File>): FileSets
  {
    PartitionFiles(cfg.defaultLanguage, AllLanguages(cfg), Router(cfg), Translator(cfg, host), pages, files)
  }

  /** `on_files` with the intended index handling of `translate_page`. */
  function OnFilesIntended(cfg: Config, host: Host, pages: map<string, seq<File>>, files: seq<File>): FileSets
  {
    PartitionFiles(cfg.defaultLanguage, AllLanguages(cfg), Router(cfg), IntendedTranslator(cfg, host), pages, files)
  }

  /** The first pass appends the assets, in order, to `main`. */
  lemma {:induction false} AssetPassMain(langs: set<string>, docs: seq<File>, files: seq<File>, acc: FileSets)
    requires forall f :: f in files ==> (f in docs <==> f.isDoc)
    ensures AssetPass(langs, docs, files, acc).main == acc.main + Assets(files)
    decreases |files|
  {
    if files != [] {
      var next := AssetStep(langs, docs, files[0], acc);
      AssetPassMain(langs, docs, files[1..], next);
      AssetsCons(files);
      Regroup(acc.main, if files[0].isDoc then [] else [files[0]], Assets(files[1..]));
    }
  }

  /** The first pass creates an entry for every language, if there is any asset. */
  lemma {:induction false} AssetPassKeys(langs: set<string>, docs: seq<File>, files: seq<File>, acc: FileSets)
    requires forall f :: f in files ==> (f in docs <==> f.isDoc)
    ensures AssetPass(langs, docs, files, acc).pages.Keys
      == acc.pages.Keys + (if Assets(files) == [] then {} else langs)
    decreases |files|
  {
    if files != [] {
      var next := AssetStep(langs, docs, files[0], acc);
      AssetPassKeys(langs, docs, files[1..], next);
      AssetsCons(files);
    }
  }

  /** The first pass appends the assets, in order, to the list of every language. */
  lemma {:induction false} AssetPassLists(langs: set<string>, docs: seq<File>, files: seq<File>, acc: FileSets, k: string)
    requires forall f :: f in files ==> (f in docs <==> f.isDoc)
    ensures Lookup(AssetPass(langs, docs, files, acc).pages, k)
      == Lookup(acc.pages, k) + (if k in langs then Assets(files) else [])
    decreases |files|
  {
    if files != [] {
      var next := AssetStep(langs, docs, files[0], acc);
      AssetPassLists(langs, docs, files[1..], next, k);
      AssetsCons(files);
      var mine := if files[0].isDoc then [] else [files[0]];
      if k in langs {
        Regroup(Lookup(acc.pages, k), mine, Assets(files[1..]));
      } else {
        assert Lookup(next.pages, k) == Lookup(acc.pages, k) + [];
      }
    }
  }

  /** One step of `Assets`. */
  lemma AssetsCons(files: seq<File>)
    requires files != []
    ensures Assets(files) == (if files[0].isDoc then [] else [files[0]]) + Assets(files[1..])
  {
  }

  /** Concatenation regrouped. */
  lemma Regroup(a: seq<File>, b: seq<File>, c: seq<File>)
    ensures a + b + c == a + (b + c)
  {
  }

  /** The second pass appends the default-language pages to `main`. */
  lemma {:induction false} PagePassMain(default: string, route: File -> string, translate: File -> File, docs: seq<File>, acc: FileSets)
    ensures PagePass(default, route, translate, docs, acc).main == acc.main + PagesOf(route, docs, default)
    decreases |docs|
  {
    if docs != [] {
      var next := PageStep(default, route, translate, docs[0], acc);
      PagePassMain(default, route, translate, docs[1..], next);
      if route(docs[0]) == default {
        assert PagesOf(route, docs, default) == [docs[0]] + PagesOf(route, docs[1..], default);
      } else {
        assert PagesOf(route, docs, default) == PagesOf(route, docs[1..], default);
      }
    }
  }

  /** The second pass creates an entry for every language a page resolves to, and no other. */
  lemma {:induction false} PagePassKeys(default: string, route: File -> string, translate: File -> File, docs: seq<File>, acc: FileSets)
    ensures PagePass(default, route, translate, docs, acc).pages.Keys == acc.pages.Keys + LanguagesOf(route, docs)
    decreases |docs|
  {
    if docs != [] {
      var next := PageStep(default, route, translate, docs[0], acc);
      PagePassKeys(default, route, translate, docs[1..], next);
    }
  }

  /** The second pass appends to each language's list the translated copies of its pages. */
  lemma {:induction false} PagePassLists(default: string, route: File -> string, translate: File -> File, docs: seq<File>, acc: FileSets, k: string)
    ensures Lookup(PagePass(default, route, translate, docs, acc).pages, k)
      == Lookup(acc.pages, k) + Translations(route, translate, docs, k)
    decreases |docs|
  {
    if docs != [] {
      var next := PageStep(default, route, translate, docs[0], acc);
      PagePassLists(default, route, translate, docs[1..], next, k);
      var mine := if route(docs[0]) == k then [translate(docs[0])] else [];
      assert Translations(route, translate, docs, k) == mine + Translations(route, translate, docs[1..], k);
      if route(docs[0]) == k {
        assert Lookup(next.pages, k) == Lookup(acc.pages, k) + mine;
      } else {
        assert Lookup(next.pages, k) == Lookup(acc.pages, k);
        assert Lookup(acc.pages, k) + mine == Lookup(acc.pages, k);
      }
      Regroup(Lookup(acc.pages, k), mine, Translations(route, translate, docs[1..], k));
    }
  }

  /** The documentation pages of `files` tell the first pass exactly which files are pages. */
  lemma DocsArePages(files: seq<File>)
    ensures forall f :: f in files ==> (f in DocumentationPages(files) <==> f.isDoc)
  {
  }

  /** The returned list: the assets, in order, then the pages of the default language, in order. */
  lemma PartitionMain(default: string, langs: set<string>, route: File -> string, translate: File -> File,
                      pages: map<string, seq<File>>, files: seq<File>)
    ensures PartitionFiles(default, langs, route, translate, pages, files).main
      == Assets(files) + PagesOf(route, DocumentationPages(files), default)
  {
    var docs := DocumentationPages(files);
    var afterAssets := AssetPass(langs, docs, files, FileSets([], pages));
    AfterAssetsMain(langs, pages, files);
    PagePassMain(default, route, translate, docs, afterAssets);
  }

  /** The first pass, from an empty returned list, returns exactly the assets. */
  lemma AfterAssetsMain(langs: set<string>, pages: map<string, seq<File>>, files: seq<File>)
    ensures AssetPass(langs, DocumentationPages(files), files, FileSets([], pages)).main == Assets(files)
  {
    DocsArePages(files);
    AssetPassMain(langs, DocumentationPages(files), files, FileSets([], pages));
    assert [] + Assets(files) == Assets(files);
  }

  /** The languages that have a list afterwards. */
  lemma PartitionKeys(default: string, langs: set<string>, route: File -> string, translate: File -> File,
                      pages: map<string, seq<File>>, files: seq<File>)
    ensures PartitionFiles(default, langs, route, translate, pages, files).pages.Keys
      == pages.Keys + (if Assets(files) == [] then {} else langs) + LanguagesOf(route, DocumentationPages(files))
  {
    var docs := DocumentationPages(files);
    DocsArePages(files);
    AssetPassKeys(langs, docs, files, FileSets([], pages));
    PagePassKeys(default, route, translate, docs, AssetPass(langs, docs, files, FileSets([], pages)));
  }

  /** Each language's list afterwards. */
  lemma PartitionLists(default: string, langs: set<string>, route: File -> string, translate: File -> File,
                       pages: map<string, seq<File>>, files: seq<File>, k: string)
    ensures Lookup(PartitionFiles(default, langs, route, translate, pages, files).pages, k)
      == SortByDepth(Lookup(pages, k) + (if k in langs then Assets(files) else [])
                     + Translations(route, translate, DocumentationPages(files), k))
  {
    var docs := DocumentationPages(files);
    DocsArePages(files);
    AssetPassLists(langs, docs, files, FileSets([], pages), k);
    var afterAssets := AssetPass(langs, docs, files, FileSets([], pages));
    PagePassLists(default, route, translate, docs, afterAssets, k);
    if k !in PagePass(default, route, translate, docs, afterAssets).pages {
      assert SortByDepth([]) == [];
    }
  }

  /**
    Lines 73-85: the list returned to the host holds the assets, in
    order, followed by the default-language pages, in order.
  */
  lemma OnFilesMain(cfg: Config, host: Host, pages: map<string, seq<File>>, files: seq<File>)
    ensures OnFiles(cfg, host, pages, files).main
      == Assets(files) + PagesOf(Router(cfg), DocumentationPages(files), cfg.defaultLanguage)
  {
    PartitionMain(cfg.defaultLanguage, AllLanguages(cfg), Router(cfg), Translator(cfg, host), pages, files);
  }

  /**
    Lines 73-85: after the call there is a list for every language that
    already had one, for every language when there is an asset, and for
    every language some page resolves to.
  */
  lemma OnFilesKeys(cfg: Config, host: Host, pages: map<string, seq<File>>, files: seq<File>)
    ensures OnFiles(cfg, host, pages, files).pages.Keys
      == pages.Keys
       + (if Assets(files) == [] then {} else AllLanguages(cfg))
       + LanguagesOf(Router(cfg), DocumentationPages(files))
  {
    PartitionKeys(cfg.defaultLanguage, AllLanguages(cfg), Router(cfg), Translator(cfg, host), pages, files);
  }

  /**
    Lines 73-88: each language's list is what it held before, then the
    assets (for a configured language), then the translated copies of
    its pages, all sorted by URL depth.
  */
  lemma OnFilesLists(cfg: Config, host: Host, pages: map<string, seq<File>>, files: seq<File>, k: string)
    ensures Lookup(OnFiles(cfg, host, pages, files).pages, k)
      == SortByDepth(Lookup(pages, k)
                     + (if k in AllLanguages(cfg) then Assets(files) else [])
                     + Translations(Router(cfg), Translator(cfg, host), DocumentationPages(files), k))
  {
    PartitionLists(cfg.defaultLanguage, AllLanguages(cfg), Router(cfg), Translator(cfg, host), pages, files, k);
  }

  /** Every file that is not a documentation page is in the returned list and in every language's list. */
  lemma OnFilesAssets(cfg: Config, host: Host, pages: map<string, seq<File>>, files: seq<File>, f: File, l: string)
    requires f in files && !f.isDoc
    requires l in AllLanguages(cfg)
    ensures f in OnFiles(cfg, host, pages, files).main
    ensures f in Lookup(OnFiles(cfg, host, pages, files).pages, l)
  {
    OnFilesMain(cfg, host, pages, files);
    OnFilesLists(cfg, host, pages, files, l);
    var before := Lookup(pages, l)
      + Assets(files)
      + Translations(Router(cfg), Translator(cfg, host), DocumentationPages(files), l);
    assert f in Assets(files);
    assert f in before;
    SortByDepthKeeps(before, f);
  }

  /**
    Lines 80-83: a documentation page is in the returned list exactly
    when it resolves to the default language.
  */
  lemma OnFilesDefaultPages(cfg: Config, host: Host, pages: map<string, seq<File>>, files: seq<File>, p: File)
    requires p in files && p.isDoc
    ensures p in OnFiles(cfg, host, pages, files).main <==> GetLang(cfg, p.url) == cfg.defaultLanguage
  {
    OnFilesMain(cfg, host, pages, files);
  }

  /** The translated copy of a page is in the list of the language the page resolves to. */
  lemma PartitionTranslated(default: string, langs: set<string>, route: File -> string, translate: File -> File,
                            pages: map<string, seq<File>>, files: seq<File>, p: File)
    requires p in files && p.isDoc
    ensures translate(p) in Lookup(PartitionFiles(default, langs, route, translate, pages, files).pages, route(p))
  {
    var l := route(p);
    PartitionLists(default, langs, route, translate, pages, files, l);
    var ts := Translations(route, translate, DocumentationPages(files), l);
    var before := Lookup(pages, l) + (if l in langs then Assets(files) else []) + ts;
    assert p in DocumentationPages(files);
    assert translate(p) in ts;
    assert translate(p) in before;
    SortByDepthKeeps(before, translate(p));
  }

  /** Lines 80-85: the translated copy of every page is in the list of the page's language. */
  lemma OnFilesTranslated(cfg: Config, host: Host, pages: map<string, seq<File>>, files: seq<File>, p: File)
    requires p in files && p.isDoc
    ensures TranslatePageAsWritten(cfg, host, p) in Lookup(OnFiles(cfg, host, pages, files).pages, GetLang(cfg, p.url))
  {
    PartitionTranslated(cfg.defaultLanguage, AllLanguages(cfg), Router(cfg), Translator(cfg, host), pages, files, p);
  }

  /** With the intended index handling, the intended copy of every page is in its language's list. */
  lemma OnFilesIntendedTranslated(cfg: Config, host: Host, pages: map<string, seq<File>>, files: seq<File>, p: File)
    requires p in files && p.isDoc
    ensures TranslatePage(cfg, host, p) in Lookup(OnFilesIntended(cfg, host, pages, files).pages, GetLang(cfg, p.url))
  {
    PartitionTranslated(cfg.defaultLanguage, AllLanguages(cfg), Router(cfg), IntendedTranslator(cfg, host), pages, files, p);
  }

  /** Two translators that agree on every page give the same second pass. */
  lemma {:induction false} PagePassAgree(default: string, route: File -> string, t1: File -> File, t2: File -> File,
                                          docs: seq<File>, acc: FileSets)
    requires forall p :: p in docs ==> t1(p) == t2(p)
    ensures PagePass(default, route, t1, docs, acc) == PagePass(default, route, t2, docs, acc)
    decreases |docs|
  {
    if docs != [] {
      assert docs[0] in docs;
      var next := PageStep(default, route, t1, docs[0], acc);
      assert next == PageStep(default, route, t2, docs[0], acc);
      forall p | p in docs[1..]
        ensures t1(p) == t2(p)
      {
        assert p in docs;
      }
      PagePassAgree(default, route, t1, t2, docs[1..], next);
    }
  }

  /** The partition depends on the translator only through the copies of the pages. */
  lemma PartitionAgree(default: string, langs: set<string>, route: File -> string, t1: File -> File, t2: File -> File,
                       pages: map<string, seq<File>>, files: seq<File>)
    requires forall p :: p in files && p.isDoc ==> t1(p) == t2(p)
    ensures PartitionFiles(default, langs, route, t1, pages, files) == PartitionFiles(default, langs, route, t2, pages, files)
  {
    var docs := DocumentationPages(files);
    PagePassAgree(default, route, t1, t2, docs, AssetPass(langs, docs, files, FileSets([], pages)));
  }

  /**
    When `translate_page` as written and with the intended index
    handling agree on every discovered page, `on_files` gives the same
    result either way.
  */
  lemma OnFilesAgree(cfg: Config, host: Host, pages: map<string, seq<File>>, files: seq<File>)
    requires forall p :: p in files && p.isDoc ==> TranslatePageAsWritten(cfg, host, p) == TranslatePage(cfg, host, p)
    ensures OnFiles(cfg, host, pages, files) == OnFilesIntended(cfg, host, pages, files)
  {
    PartitionAgree(cfg.defaultLanguage, AllLanguages(cfg), Router(cfg), Translator(cfg, host), IntendedTranslator(cfg, host),
                   pages, files);
  }

  /**
    Lines 79-88: every list is sorted by URL depth, and the call creates
    no list for a language that is neither the default nor configured.
  */
  lemma OnFilesListsSorted(cfg: Config, host: Host, pages: map<string, seq<File>>, files: seq<File>)
    ensures forall k :: k in OnFiles(cfg, host, pages, files).pages ==>
      SortedBy(OnFiles(cfg, host, pages, files).pages[k], Depth)
    ensures OnFiles(cfg, host, pages, files).pages.Keys <= pages.Keys + AllLanguages(cfg)
  {
    OnFilesKeys(cfg, host, pages, files);
    forall l | l in LanguagesOf(Router(cfg), DocumentationPages(files))
      ensures l in AllLanguages(cfg)
    {
      var p :| p in DocumentationPages(files) && Router(cfg)(p) == l;
    }
  }
}

=== FILE: scenarios.dfy ===
/**
  Concrete runs of the model: the repository's sort test and the
  translation of an ordinary page and of a language's root page.
*/
module Scenarios {
  import opened Pages
  import opened Strings
  import opened Language
  import opened Translate
  import opened TaggedPages
  import opened Sorting

  /** A file whose URL is `url`; the other fields do not matter to the sort. */
  function PageAt(src: string, name: string, url: string): File
  {
    File(src, name, url + "index.html", "/tmp/" + url + "index.html", url, true)
  }

  lemma DepthOfTheme()
    ensures Depth(PageAt("/tmp/theme/index.md", "index", "lang/theme/")) == 3
  {
    var parts := ["lang", "theme", ""];
    assert Join(parts, "/") == "lang/theme/";
    SplitJoin(parts, '/');
  }

  lemma DepthOfThemeB()
    ensures Depth(PageAt("/tmp/theme/b.md", "b", "lang/theme/b/")) == 4
  {
    var parts := ["lang", "theme", "b", ""];
    assert Join(parts, "/") == "lang/theme/b/";
    SplitJoin(parts, '/');
  }

  /**
    tests/test_mkdocs_translations.py:12-29: `lang/theme/b/`, appended
    first, sorts after `lang/theme/`.
  */
  lemma SortTest()
    ensures
      var index := PageAt("/tmp/theme/index.md", "index", "lang/theme/");
      var second := PageAt("/tmp/theme/b.md", "b", "lang/theme/b/");
      SortByDepth([second, index]) == [index, second]
  {
    DepthOfTheme();
    DepthOfThemeB();
    SortTwo(PageAt("/tmp/theme/index.md", "index", "lang/theme/"), PageAt("/tmp/theme/b.md", "b", "lang/theme/b/"));
  }

  lemma GuideNames()
    ensures Tagged("guide", "fr") == "guide.fr"
    ensures "fr" + "/" + "guide" + "/index.html" == "fr/guide/index.html"
    ensures "fr" + "/" + "guide" + "/" == "fr/guide/"
  {
  }

  /**
    `guide.fr.md` on a site translated into French: the copy is named
    `guide`, is written to `fr/guide/index.html` and is served at
    `fr/guide/`.
  */
  lemma GuideFr(cfg: Config, host: Host, abs: string)
    requires "fr" in cfg.languages
    requires host.quote("guide.fr") == "guide.fr" && host.quote("guide") == "guide"
    ensures TranslatePage(cfg, host, TaggedPage("guide", "fr", abs)).name == "guide"
    ensures TranslatePage(cfg, host, TaggedPage("guide", "fr", abs)).destPath == "fr/guide/index.html"
    ensures TranslatePage(cfg, host, TaggedPage("guide", "fr", abs)).url == "fr/guide/"
  {
    GuideNames();
    TranslateTaggedPage(cfg, host, "guide", "fr", abs);
  }

  /**
    `guide.fr.md` with `translate_page` as written: the same copy, named
    `guide`, written to `fr/guide/index.html` and served at `fr/guide/`.
  */
  lemma GuideFrAsWritten(cfg: Config, host: Host, abs: string)
    requires "fr" in cfg.languages
    requires host.quote("guide.fr") == "guide.fr" && host.quote("guide") == "guide"
    ensures TranslatePageAsWritten(cfg, host, TaggedPage("guide", "fr", abs)).name == "guide"
    ensures TranslatePageAsWritten(cfg, host, TaggedPage("guide", "fr", abs)).destPath == "fr/guide/index.html"
    ensures TranslatePageAsWritten(cfg, host, TaggedPage("guide", "fr", abs)).url == "fr/guide/"
  {
    GuideNames();
    assert Tagged("guide", "fr")[1] == 'u';
    AbsentChar("/index.html", Tagged("guide", "fr"), 1);
    NotEndsWithAt("guide", "index", 0);
    TranslateTaggedPageAsWritten(cfg, host, "guide", "fr", abs);
  }

  lemma RootNames()
    ensures Tagged("index", "fr") == "index.fr"
    ensures "fr" + "/index.html" == "fr/index.html"
    ensures "fr" + "/" == "fr/"
  {
  }

  /**
    `index.fr.md` on a site translated into French: the copy is the
    French root page, written to `fr/index.html` and served at `fr/`.
  */
  lemma IndexFr(cfg: Config, host: Host, abs: string)
    requires "fr" in cfg.languages
    requires host.quote("index.fr") == "index.fr" && host.quote("index") == "index"
    ensures TranslatePage(cfg, host, TaggedPage("index", "fr", abs)).destPath == "fr/index.html"
    ensures TranslatePage(cfg, host, TaggedPage("index", "fr", abs)).url == "fr/"
  {
    RootNames();
    TranslateLanguageRoot(cfg, host, "fr", abs);
  }

  /**
    `index.fr.md` with `translate_page` as written: the French root
    page, written to `fr/index.html` and served at `fr/`.
  */
  lemma IndexFrAsWritten(cfg: Config, host: Host, abs: string)
    requires "fr" in cfg.languages
    requires host.quote("index.fr") == "index.fr" && host.quote("index") == "index"
    ensures TranslatePageAsWritten(cfg, host, TaggedPage("index", "fr", abs)).destPath == "fr/index.html"
    ensures TranslatePageAsWritten(cfg, host, TaggedPage("index", "fr", abs)).url == "fr/"
  {
    RootNames();
    assert !EndsWith("fr", "index");
    TranslateLanguageRootAsWritten(cfg, host, "fr", abs);
  }
}

=== FILE: site.dfy ===
/**
  The hooks one after the other: the language lists `on_files` builds
  are the ones `on_nav` builds the navigations from.
*/
module Site {
  import opened Strings
  import opened Pages
  import opened Language
  import opened Translate
  import opened TaggedPages
  import opened Partition
  import opened Navigation

  /**
    When the discovered files hold a language's root page
    `index.<lang>.md`, the navigation built for that language has a
    homepage, and it is served at `<lang>/` (lines 44-51, 79-85, 214-218).
    The code as written needs a language that does not end with `index`.
  */
  lemma RootPageIsHomepage<N>(cfg: Config, host: Host, pages: map<string, seq<File>>, files: seq<File>,
                              lang: string, abs: string, nav: N, build: seq<File> -> N)
    requires lang in cfg.languages && '.' !in lang && '/' !in lang && !EndsWith(lang, "index")
    requires TaggedPage("index", lang, abs) in files
    requires host.quote(Tagged("index", lang)) == Tagged("index", lang) && host.quote("index") == "index"
    ensures
      var built := OnNav(nav, map[], OnFiles(cfg, host, pages, files).pages, build).1;
      && lang in built
      && built[lang].homepage.Some?
      && built[lang].homepage.value.url == lang + "/"
  {
    var page := TaggedPage("index", lang, abs);
    GetLangOfTaggedUrl(cfg, "index", lang);
    assert GetLang(cfg, page.url) == lang;
    OnFilesTranslated(cfg, host, pages, files, page);
    TranslateLanguageRootAsWritten(cfg, host, lang, abs);
    var lists := OnFiles(cfg, host, pages, files).pages;
    assert TranslatePageAsWritten(cfg, host, page) in Lookup(lists, lang);
    assert lang in lists;
    HomepageIsRoot(nav, lists, build, lang, TranslatePageAsWritten(cfg, host, page));
  }

  /** The same with the intended index handling, for every configured language. */
  lemma RootPageIsHomepageIntended<N>(cfg: Config, host: Host, pages: map<string, seq<File>>, files: seq<File>,
                                      lang: string, abs: string, nav: N, build: seq<File> -> N)
    requires lang in cfg.languages && '.' !in lang && '/' !in lang
    requires TaggedPage("index", lang, abs) in files
    requires host.quote(Tagged("index", lang)) == Tagged("index", lang) && host.quote("index") == "index"
    ensures
      var built := OnNav(nav, map[], OnFilesIntended(cfg, host, pages, files).pages, build).1;
      && lang in built
      && built[lang].homepage.Some?
      && built[lang].homepage.value.url == lang + "/"
  {
    var page := TaggedPage("index", lang, abs);
    GetLangOfTaggedUrl(cfg, "index", lang);
    assert GetLang(cfg, page.url) == lang;
    OnFilesIntendedTranslated(cfg, host, pages, files, page);
    TranslateLanguageRoot(cfg, host, lang, abs);
    var lists := OnFilesIntended(cfg, host, pages, files).pages;
    assert TranslatePage(cfg, host, page) in Lookup(lists, lang);
    assert lang in lists;
    HomepageIsRoot(nav, lists, build, lang, TranslatePage(cfg, host, page));
  }

  /** A list holding a file served at `<lang>/` gives its navigation a homepage served there. */
  lemma HomepageIsRoot<N>(nav: N, lists: map<string, seq<File>>, build: seq<File> -> N, lang: string, root: File)
    requires lang in lists && root in lists[lang] && root.url == lang + "/"
    ensures
      var built := OnNav(nav, map[], lists, build).1;
      && lang in built
      && built[lang].homepage.Some?
      && built[lang].homepage.value.url == lang + "/"
  {
  }
}

=== FILE: sorting.dfy ===
/**
  `_sort_translated_files`: every language's file list stably sorted by
  the number of `/`-separated segments of each file's URL. The sort is
  written for any key; `Depth` is the key the plugin uses.
*/
module Sorting {
  import opened Strings
  import opened Pages

  /** Lines 223-230: the sort key, `len(url.split("/"))`. */
  function Depth(f: File): nat
  {
    |Split(f.url, "/")|
  }

  /** The sort key is one more than the number of `/` in the URL. */
  lemma DepthCountsSlashes(f: File)
    ensures Depth(f) == CountChar(f.url, '/') + 1
  {
    SplitCount(f.url, '/');
  }

  predicate SortedBy(s: seq<File>, key: File -> nat)
  {
    forall i, j :: 0 <= i < j < |s| ==> key(s[i]) <= key(s[j])
  }

  /** The files of `s` whose key is `d`, in their order in `s`. */
  function WithKey(s: seq<File>, key: File -> nat, d: nat): (r: seq<File>)
    ensures forall f :: f in r <==> f in s && key(f) == d
  {
    if s == [] then []
    else (if key(s[0]) == d then [s[0]] else []) + WithKey(s[1..], key, d)
  }

  /** Inserts `f` before the first file whose key is not smaller. */
  function Insert(f: File, s: seq<File>, key: File -> nat): (r: seq<File>)
    requires SortedBy(s, key)
    ensures SortedBy(r, key)
    ensures multiset(r) == multiset(s) + multiset{f}
    ensures forall g :: g in r ==> g == f || g in s
  {
    if s == [] || key(f) <= key(s[0]) then
      InsertFront(f, s, key);
      [f] + s
    else
      var rest := Insert(f, s[1..], key);
      InsertBehind(f, s, key, rest);
      [s[0]] + rest
  }

  /** `f` goes in front of a list whose keys are all at least its own. */
  lemma InsertFront(f: File, s: seq<File>, key: File -> nat)
    requires SortedBy(s, key)
    requires s == [] || key(f) <= key(s[0])
    ensures SortedBy([f] + s, key)
    ensures multiset([f] + s) == multiset(s) + multiset{f}
    ensures forall g :: g in [f] + s ==> g == f || g in s
  {
    if s != [] {
      LeastKeyFirst(s, key);
    }
    SortedCons(f, s, key);
  }

  /** The head of `s` stays in front of `f` inserted into the rest. */
  lemma InsertBehind(f: File, s: seq<File>, key: File -> nat, rest: seq<File>)
    requires SortedBy(s, key) && s != [] && key(s[0]) < key(f)
    requires SortedBy(rest, key)
    requires multiset(rest) == multiset(s[1..]) + multiset{f}
    requires forall g :: g in rest ==> g == f || g in s[1..]
    ensures SortedBy([s[0]] + rest, key)
    ensures multiset([s[0]] + rest) == multiset(s) + multiset{f}
    ensures forall g :: g in [s[0]] + rest ==> g == f || g in s
  {
    assert s == [s[0]] + s[1..];
    LeastKeyFirst(s, key);
    forall g | g in rest
      ensures key(s[0]) <= key(g)
    {
      if g != f {
        assert g in s;
      }
    }
    SortedCons(s[0], rest, key);
  }

  lemma SortedCons(x: File, rest: seq<File>, key: File -> nat)
    requires SortedBy(rest, key)
    requires forall g :: g in rest ==> key(x) <= key(g)
    ensures SortedBy([x] + rest, key)
  {
    var s := [x] + rest;
    forall i, j | 0 <= i < j < |s|
      ensures key(s[i]) <= key(s[j])
    {
      assert s[j] == rest[j - 1];
      if i > 0 {
        assert s[i] == rest[i - 1];
      }
    }
  }

  /** Python's `sorted(s, key=key)`, as an insertion sort. */
  function SortBy(s: seq<File>, key: File -> nat): (r: seq<File>)
    ensures SortedBy(r, key)
    ensures multiset(r) == multiset(s)
  {
    if s == [] then []
    else
      assert s == [s[0]] + s[1..];
      Insert(s[0], SortBy(s[1..], key), key)
  }

  lemma {:induction false} InsertWithKey(f: File, s: seq<File>, key: File -> nat, d: nat)
    requires SortedBy(s, key)
    ensures WithKey(Insert(f, s, key), key, d) == (if key(f) == d then [f] else []) + WithKey(s, key, d)
    decreases |s|
  {
    if s == [] || key(f) <= key(s[0]) {
      assert ([f] + s)[1..] == s;
    } else {
      var rest := Insert(f, s[1..], key);
      assert Insert(f, s, key) == [s[0]] + rest;
      InsertWithKey(f, s[1..], key, d);
      var head := if key(s[0]) == d then [s[0]] else [];
      var mine := if key(f) == d then [f] else [];
      assert ([s[0]] + rest)[1..] == rest;
      assert WithKey([s[0]] + rest, key, d) == head + WithKey(rest, key, d);
      assert WithKey(s, key, d) == head + WithKey(s[1..], key, d);
      SwapDisjoint(head, mine, WithKey(s[1..], key, d));
    }
  }

  lemma SwapDisjoint(head: seq<File>, mine: seq<File>, rest: seq<File>)
    requires head == [] || mine == []
    ensures head + (mine + rest) == mine + (head + rest)
  {
  }

  /**
    The sort is stable: for every key value, the files with that value
    appear in the result in the order they had in the input.
  */
  lemma {:induction false} SortByStable(s: seq<File>, key: File -> nat, d: nat)
    ensures WithKey(SortBy(s, key), key, d) == WithKey(s, key, d)
    decreases |s|
  {
    if s != [] {
      SortByStable(s[1..], key, d);
      InsertWithKey(s[0], SortBy(s[1..], key), key, d);
    }
  }

  lemma LeastKeyFirst(s: seq<File>, key: File -> nat)
    requires SortedBy(s, key) && s != []
    ensures forall f :: f in s ==> key(s[0]) <= key(f)
  {
  }

  /**
    A stable sort has only one possible result: two sorted permutations
    of each other that agree, key value by key value, on the order of
    their files are equal. So `SortBy` is what Python's stable `sorted` returns.
  */
  lemma {:induction false} StableSortUnique(a: seq<File>, b: seq<File>, key: File -> nat)
    requires multiset(a) == multiset(b)
    requires SortedBy(a, key) && SortedBy(b, key)
    requires forall d :: WithKey(a, key, d) == WithKey(b, key, d)
    ensures a == b
    decreases |a|
  {
    assert |a| == |multiset(a)| == |b|;
    if a != [] {
      HeadsAgree(a, b, key);
      TailsAgree(a, b, key);
      TailMultiset(a, b);
      StableSortUnique(a[1..], b[1..], key);
      assert a == [a[0]] + a[1..] && b == [b[0]] + b[1..];
    }
  }

  lemma HeadsAgree(a: seq<File>, b: seq<File>, key: File -> nat)
    requires a != [] && b != []
    requires SortedBy(a, key) && SortedBy(b, key)
    requires forall d :: WithKey(a, key, d) == WithKey(b, key, d)
    ensures a[0] == b[0]
  {
    var da, db := key(a[0]), key(b[0]);
    LeastKeyFirst(a, key);
    LeastKeyFirst(b, key);
    assert a[0] in WithKey(b, key, da);
    assert b[0] in WithKey(a, key, db);
    assert da == db;
    assert WithKey(a, key, da)[0] == a[0];
    assert WithKey(b, key, da)[0] == b[0];
    assert WithKey(a, key, da) == WithKey(b, key, da);
  }

  lemma TailsAgree(a: seq<File>, b: seq<File>, key: File -> nat)
    requires a != [] && b != [] && a[0] == b[0]
    requires forall d :: WithKey(a, key, d) == WithKey(b, key, d)
    ensures forall d :: WithKey(a[1..], key, d) == WithKey(b[1..], key, d)
  {
    forall d
      ensures WithKey(a[1..], key, d) == WithKey(b[1..], key, d)
    {
      var ha := if key(a[0]) == d then [a[0]] else [];
      assert WithKey(a, key, d) == ha + WithKey(a[1..], key, d);
      assert WithKey(b, key, d) == ha + WithKey(b[1..], key, d);
      assert (ha + WithKey(a[1..], key, d))[|ha|..] == WithKey(a[1..], key, d);
      assert (ha + WithKey(b[1..], key, d))[|ha|..] == WithKey(b[1..], key, d);
    }
  }

  lemma TailMultiset(a: seq<File>, b: seq<File>)
    requires a != [] && b != [] && a[0] == b[0]
    requires multiset(a) == multiset(b)
    ensures multiset(a[1..]) == multiset(b[1..])
  {
    assert a == [a[0]] + a[1..] && b == [b[0]] + b[1..];
    assert multiset(a[1..]) == multiset(a) - multiset{a[0]};
    assert multiset(b[1..]) == multiset(b) - multiset{b[0]};
  }

  /** One language's list after `_sort_translated_files`. */
  function SortByDepth(s: seq<File>): (r: seq<File>)
    ensures SortedBy(r, Depth)
    ensures multiset(r) == multiset(s)
    ensures forall d :: WithKey(r, Depth, d) == WithKey(s, Depth, d)
  {
    forall d
      ensures WithKey(SortBy(s, Depth), Depth, d) == WithKey(s, Depth, d)
    {
      SortByStable(s, Depth, d);
    }
    SortBy(s, Depth)
  }

  /** Two files out of depth order are swapped. */
  lemma SortTwo(a: File, b: File)
    requires Depth(a) < Depth(b)
    ensures SortByDepth([b, a]) == [a, b]
  {
    assert [b, a][1..] == [a];
    SortOne(a, Depth);
    InsertAfter(b, a, Depth);
  }

  lemma SortOne(a: File, key: File -> nat)
    ensures SortBy([a], key) == [a]
  {
    assert [a][1..] == [];
  }

  lemma InsertAfter(b: File, a: File, key: File -> nat)
    requires key(a) < key(b)
    ensures Insert(b, [a], key) == [a, b]
  {
    assert [a][1..] == [];
  }

  /** Sorting keeps every file of the list. */
  lemma SortByDepthKeeps(s: seq<File>, f: File)
    requires f in s
    ensures f in SortByDepth(s)
  {
    assert f in multiset(s);
  }

  /**
    `SortByDepth` is Python's `sorted(pages, key=sort_key)`: any sorted
    permutation of the list that keeps equal-key files in their input
    order is the one it returns.
  */
  lemma SortByDepthIsSorted(s: seq<File>, r: seq<File>)
    requires multiset(r) == multiset(s)
    requires SortedBy(r, Depth)
    requires forall d :: WithKey(r, Depth, d) == WithKey(s, Depth, d)
    ensures r == SortByDepth(s)
  {
    StableSortUnique(r, SortByDepth(s), Depth);
  }

  /** Lines 232-233: every language's list sorted, the keys unchanged. */
  function SortAll(pages: map<string, seq<File>>): (r: map<string, seq<File>>)
    ensures r.Keys == pages.Keys
    ensures forall k :: k in r ==> r[k] == SortByDepth(pages[k])
  {
    map k | k in pages :: SortByDepth(pages[k])
  }
}

=== FILE: strings.dfy ===
/**
  The Python string operations the plugin is built from, on `string`
  (`seq<char>`): `in`, `find`, `replace`, `split`, `join`, `strip`,
  `rsplit(c, 1)[-1]`, `startswith` and `endswith`.
*/
module Strings {
  import opened Wrappers

  /** `pat` occurs in `s` starting at index `i`. */
  predicate OccursAt(s: string, pat: string, i: int)
  {
    0 <= i && i + |pat| <= |s| && s[i..i + |pat|] == pat
  }

  /** Python's `pat in s`. */
  predicate Contains(s: string, pat: string)
  {
    exists i | 0 <= i <= |s| :: OccursAt(s, pat, i)
  }

  /** Python's `s.startswith(prefix)`. */
  predicate StartsWith(s: string, prefix: string)
  {
    |prefix| <= |s| && s[..|prefix|] == prefix
  }

  /** Python's `s.endswith(suffix)`. */
  predicate EndsWith(s: string, suffix: string)
  {
    |suffix| <= |s| && s[|s| - |suffix|..] == suffix
  }

  /** Occurrences in `s[1..]` are the occurrences in `s` shifted by one. */
  lemma TailOccurrences(s: string, pat: string)
    requires |s| > 0
    ensures forall i :: 0 <= i ==> (OccursAt(s[1..], pat, i) <==> OccursAt(s, pat, i + 1))
    ensures forall i :: 1 <= i ==> (OccursAt(s, pat, i) <==> OccursAt(s[1..], pat, i - 1))
  {
    forall i | 0 <= i
      ensures OccursAt(s[1..], pat, i) <==> OccursAt(s, pat, i + 1)
    {
      if i + |pat| <= |s| - 1 {
        assert s[1..][i..i + |pat|] == s[i + 1..i + 1 + |pat|];
      }
    }
    forall i | 1 <= i
      ensures OccursAt(s, pat, i) <==> OccursAt(s[1..], pat, i - 1)
    {
      if i + |pat| <= |s| {
        assert s[1..][i - 1..i - 1 + |pat|] == s[i..i + |pat|];
      }
    }
  }

  /** A one-character pattern occurs exactly when the character does. */
  lemma ContainsChar(s: string, c: char)
    ensures Contains(s, [c]) <==> c in s
  {
    if c in s {
      var i :| 0 <= i < |s| && s[i] == c;
      assert OccursAt(s, [c], i);
    }
    if Contains(s, [c]) {
      var i :| 0 <= i <= |s| && OccursAt(s, [c], i);
      assert i + 1 <= |s| && s[i..i + 1] == [c];
      assert s[i..i + 1][0] == s[i];
    }
  }

  /** Python's `s.find(pat)`: the leftmost occurrence, if any (see `FindFirstSpec`). */
  function FindFirst(s: string, pat: string): (r: Option<nat>)
    ensures r.Some? ==> r.value + |pat| <= |s|
    decreases |s|
  {
    if |s| < |pat| then None
    else if s[..|pat|] == pat then Some(0)
    else
      match FindFirst(s[1..], pat)
      case None => None
      case Some(j) => Some(j + 1)
  }

  /** `FindFirst` finds an occurrence, the leftmost one, and finds none only when there is none. */
  lemma {:induction false} FindFirstSpec(s: string, pat: string)
    ensures FindFirst(s, pat).Some? ==> OccursAt(s, pat, FindFirst(s, pat).value)
    ensures FindFirst(s, pat).Some? ==> forall j :: 0 <= j < FindFirst(s, pat).value ==> !OccursAt(s, pat, j)
    ensures FindFirst(s, pat).None? <==> !Contains(s, pat)
    decreases |s|
  {
    if |s| < |pat| {
    } else if s[..|pat|] == pat {
      assert OccursAt(s, pat, 0);
    } else {
      TailOccurrences(s, pat);
      FindFirstSpec(s[1..], pat);
      if Contains(s, pat) {
        var i :| 0 <= i <= |s| && OccursAt(s, pat, i);
        assert i != 0;
        assert OccursAt(s[1..], pat, i - 1);
      }
    }
  }

  /**
    Python's `s.replace(target, repl)`, scanning left to right and
    replacing non-overlapping occurrences. An empty `target` matches
    before every character and at the end, as in Python.
  */
  function ReplaceAll(s: string, target: string, repl: string): (r: string)
    ensures |target| == 0 ==> |r| == |s| + (|s| + 1) * |repl|
    ensures |target| > 0 && !Contains(s, target) ==> r == s
    decreases |s|
  {
    if |target| == 0 then
      if s == [] then repl else repl + [s[0]] + ReplaceAll(s[1..], target, repl)
    else if |s| < |target| then s
    else if s[..|target|] == target then
      assert OccursAt(s, target, 0);
      repl + ReplaceAll(s[|target|..], target, repl)
    else
      TailOccurrences(s, target);
      [s[0]] + ReplaceAll(s[1..], target, repl)
  }

  /**
    Python's `s.split(sep)`: the pieces between the leftmost
    non-overlapping occurrences of `sep`.
  */
  function Split(s: string, sep: string): (parts: seq<string>)
    requires |sep| > 0
    ensures |parts| >= 1
    decreases |s|
  {
    match FindFirst(s, sep)
    case None => [s]
    case Some(i) => [s[..i]] + Split(s[i + |sep|..], sep)
  }

  /** No piece of a split contains the separator. */
  lemma {:induction false} SplitPiecesFree(s: string, sep: string)
    requires |sep| > 0
    ensures forall k :: 0 <= k < |Split(s, sep)| ==> !Contains(Split(s, sep)[k], sep)
    decreases |s|
  {
    FindFirstSpec(s, sep);
    match FindFirst(s, sep)
    case None =>
    case Some(i) =>
      PrefixBeforeFirst(s, sep, i);
      SplitPiecesFree(s[i + |sep|..], sep);
  }

  lemma PrefixBeforeFirst(s: string, sep: string, i: nat)
    requires |sep| > 0
    requires OccursAt(s, sep, i)
    requires forall j :: 0 <= j < i ==> !OccursAt(s, sep, j)
    ensures !Contains(s[..i], sep)
  {
    forall j | OccursAt(s[..i], sep, j)
      ensures false
    {
      assert s[..i][j..j + |sep|] == s[j..j + |sep|];
      assert OccursAt(s, sep, j);
    }
  }

  /** Python's `sep.join(parts)`. */
  function Join(parts: seq<string>, sep: string): string
  {
    if |parts| == 0 then []
    else if |parts| == 1 then parts[0]
    else parts[0] + sep + Join(parts[1..], sep)
  }

  /** Number of occurrences of `c` in `s` (Python's `s.count(c)`). */
  function CountChar(s: string, c: char): nat
  {
    if s == [] then 0 else (if s[0] == c then 1 else 0) + CountChar(s[1..], c)
  }

  /** Prepending a character to the first piece prepends it to the join. */
  lemma JoinConsChar(c: char, parts: seq<string>, sep: string)
    requires |parts| >= 1
    ensures Join([[c] + parts[0]] + parts[1..], sep) == [c] + Join(parts, sep)
  {
    var q := [[c] + parts[0]] + parts[1..];
    assert q[1..] == parts[1..];
  }

  /** How `Split` of `s` relates to `Split` of `s[1..]` when `s` does not start with `sep`. */
  lemma SplitTail(s: string, sep: string)
    requires |sep| > 0 && |s| > 0
    requires !OccursAt(s, sep, 0)
    ensures Split(s, sep) == [[s[0]] + Split(s[1..], sep)[0]] + Split(s[1..], sep)[1..]
  {
    FindFirstTail(s, sep);
    if FindFirst(s[1..], sep).None? {
      SplitTailNone(s, sep);
    } else {
      SplitTailSome(s, sep, FindFirst(s[1..], sep).value);
    }
  }

  lemma SplitTailNone(s: string, sep: string)
    requires |sep| > 0 && |s| > 0
    requires FindFirst(s[1..], sep).None? && FindFirst(s, sep).None?
    ensures Split(s, sep) == [[s[0]] + Split(s[1..], sep)[0]] + Split(s[1..], sep)[1..]
  {
    var t := s[1..];
    assert Split(t, sep) == [t];
    assert Split(s, sep) == [s];
    assert [s[0]] + t == s;
  }

  lemma SplitTailSome(s: string, sep: string, j: nat)
    requires |sep| > 0 && |s| > 0
    requires FindFirst(s[1..], sep) == Some(j) && FindFirst(s, sep) == Some(j + 1)
    ensures Split(s, sep) == [[s[0]] + Split(s[1..], sep)[0]] + Split(s[1..], sep)[1..]
  {
    var t := s[1..];
    SplitAt(t, sep, j);
    SplitAt(s, sep, j + 1);
    SliceTail(s, j + 1 + |sep|);
    ConsSlice(s, j);
    PieceAlgebra(s[0], Split(t, sep), Split(s, sep), t[..j], s[..j + 1], Split(s[j + 1 + |sep|..], sep));
  }

  /** One step of `Split` at the leftmost occurrence. */
  lemma SplitAt(s: string, sep: string, i: nat)
    requires |sep| > 0 && FindFirst(s, sep) == Some(i)
    ensures i + |sep| <= |s|
    ensures Split(s, sep) == [s[..i]] + Split(s[i + |sep|..], sep)
  {
  }

  lemma SliceTail(s: string, k: nat)
    requires 1 <= k <= |s|
    ensures s[1..][k - 1..] == s[k..]
  {
  }

  lemma ConsSlice(s: string, j: nat)
    requires j + 1 <= |s|
    ensures [s[0]] + s[1..][..j] == s[..j + 1]
  {
  }

  /** Sequence algebra behind `SplitTailSome`. */
  lemma PieceAlgebra(ch: char, tail: seq<string>, whole: seq<string>, first: string, wfirst: string, rest: seq<string>)
    requires tail == [first] + rest && whole == [wfirst] + rest && [ch] + first == wfirst
    ensures whole == [[ch] + tail[0]] + tail[1..]
  {
    assert tail[1..] == rest;
  }

  /** The leftmost occurrence in `s` is one past the leftmost in `s[1..]`, when none is at 0. */
  lemma FindFirstTail(s: string, sep: string)
    requires |sep| > 0 && |s| > 0
    requires !OccursAt(s, sep, 0)
    ensures FindFirst(s[1..], sep).None? ==> FindFirst(s, sep).None?
    ensures FindFirst(s[1..], sep).Some? ==> FindFirst(s, sep) == Some(FindFirst(s[1..], sep).value + 1)
  {
    if |s| < |sep| {
      assert |s[1..]| < |sep|;
    } else {
      assert s[..|sep|] != sep;
    }
  }

  /** Sequence algebra: the first piece extended by one character. */
  lemma ConsPiece(ch: char, first: string, rest: seq<string>)
    ensures ([[ch] + ([first] + rest)[0]] + ([first] + rest)[1..]) == [[ch] + first] + rest
  {
    assert ([first] + rest)[1..] == rest;
  }

  /** `replace` agrees with the split-then-join reading of it. */
  lemma {:induction false} ReplaceAllIsJoinOfSplit(s: string, target: string, repl: string)
    requires |target| > 0
    ensures ReplaceAll(s, target, repl) == Join(Split(s, target), repl)
    decreases |s|
  {
    if |s| < |target| {
      assert FindFirst(s, target) == None;
    } else if s[..|target|] == target {
      assert OccursAt(s, target, 0);
      assert FindFirst(s, target) == Some(0);
      var rest := Split(s[|target|..], target);
      assert Split(s, target) == [s[..0]] + rest;
      assert ([s[..0]] + rest)[1..] == rest;
      ReplaceAllIsJoinOfSplit(s[|target|..], target, repl);
    } else {
      SplitTail(s, target);
      ReplaceAllIsJoinOfSplit(s[1..], target, repl);
      JoinConsChar(s[0], Split(s[1..], target), repl);
    }
  }

  /** Replacing a pattern by itself changes nothing. */
  lemma {:induction false} ReplaceAllSelf(s: string, target: string)
    requires |target| > 0
    ensures ReplaceAll(s, target, target) == s
    decreases |s|
  {
    if |s| < |target| {
    } else if s[..|target|] == target {
      ReplaceAllSelf(s[|target|..], target);
      assert s[..|target|] + s[|target|..] == s;
    } else {
      ReplaceAllSelf(s[1..], target);
      assert [s[0]] + s[1..] == s;
    }
  }

  /** Joining the pieces of a split with the separator gives back the string. */
  lemma JoinSplit(s: string, sep: string)
    requires |sep| > 0
    ensures Join(Split(s, sep), sep) == s
  {
    ReplaceAllIsJoinOfSplit(s, sep, sep);
    ReplaceAllSelf(s, sep);
  }

  /** Splitting a join on a one-character separator gives back the pieces. */
  lemma {:induction false} SplitJoin(parts: seq<string>, c: char)
    requires |parts| >= 1
    requires forall k :: 0 <= k < |parts| ==> c !in parts[k]
    ensures Split(Join(parts, [c]), [c]) == parts
    decreases |parts|
  {
    var s := Join(parts, [c]);
    if |parts| == 1 {
      ContainsChar(parts[0], c);
      FindFirstSpec(s, [c]);
    } else {
      var p0 := parts[0];
      var rest := parts[1..];
      assert s == p0 + [c] + Join(rest, [c]);
      assert OccursAt(s, [c], |p0|);
      forall j | 0 <= j < |p0|
        ensures !OccursAt(s, [c], j)
      {
        assert s[j] == p0[j];
      }
      FindFirstIs(s, [c], |p0|);
      var i := |p0|;
      assert s[..i] == p0;
      assert s[i + 1..] == Join(rest, [c]);
      SplitJoin(rest, c);
      assert parts == [p0] + rest;
    }
  }

  /** A string without the separator is its own single piece. */
  lemma SplitNone(s: string, sep: string)
    requires |sep| > 0 && !Contains(s, sep)
    ensures Split(s, sep) == [s]
  {
    FindFirstSpec(s, sep);
  }

  /** An occurrence with none before it is the one `FindFirst` returns. */
  lemma FindFirstIs(s: string, pat: string, i: nat)
    requires OccursAt(s, pat, i)
    requires forall j :: 0 <= j < i ==> !OccursAt(s, pat, j)
    ensures FindFirst(s, pat) == Some(i)
  {
    FindFirstSpec(s, pat);
    assert Contains(s, pat);
    var k := FindFirst(s, pat).value;
    assert !(k < i);
    assert !(i < k);
  }

  /** A string that starts with the separator splits into an empty piece first. */
  lemma SplitLeadingSep(b: string, c: char)
    ensures Split([c] + b, [c]) == [""] + Split(b, [c])
  {
    var s := [c] + b;
    assert OccursAt(s, [c], 0);
    assert FindFirst(s, [c]) == Some(0);
    assert s[1..] == b;
  }

  /** Splitting at a separator character splits the two sides independently. */
  lemma {:induction false} SplitAppend(a: string, c: char, b: string)
    ensures Split(a + [c] + b, [c]) == Split(a, [c]) + Split(b, [c])
    decreases |a|
  {
    if a == [] {
      SplitAppendEmpty(c, b);
    } else if a[0] == c {
      SplitAppend(a[1..], c, b);
      SplitAppendLead(a, c, b);
    } else {
      SplitAppend(a[1..], c, b);
      SplitAppendOther(a, c, b);
    }
  }

  lemma SplitAppendEmpty(c: char, b: string)
    ensures Split([] + [c] + b, [c]) == Split([], [c]) + Split(b, [c])
  {
    assert [] + [c] + b == [c] + b;
    SplitLeadingSep(b, c);
    assert FindFirst([], [c]) == None;
  }

  lemma SplitAppendLead(a: string, c: char, b: string)
    requires a != [] && a[0] == c
    requires Split(a[1..] + [c] + b, [c]) == Split(a[1..], [c]) + Split(b, [c])
    ensures Split(a + [c] + b, [c]) == Split(a, [c]) + Split(b, [c])
  {
    var a' := a[1..];
    var m := a' + [c] + b;
    assert a == [c] + a';
    assert a + [c] + b == [c] + m;
    SplitLeadingSep(m, c);
    SplitLeadingSep(a', c);
    LeadAlgebra(Split(a + [c] + b, [c]), Split(m, [c]), Split(a, [c]), Split(a', [c]), Split(b, [c]));
  }

  /** Sequence algebra behind `SplitAppendLead`. */
  lemma LeadAlgebra(whole: seq<string>, mid: seq<string>, left: seq<string>, left': seq<string>, right: seq<string>)
    requires whole == [""] + mid && mid == left' + right && left == [""] + left'
    ensures whole == left + right
  {
  }

  lemma NotAtStart(s: string, c: char)
    requires s != [] && s[0] != c
    ensures !OccursAt(s, [c], 0)
  {
    assert s[..1][0] == s[0];
  }

  lemma {:induction false} SplitAppendOther(a: string, c: char, b: string)
    requires a != [] && a[0] != c
    requires Split(a[1..] + [c] + b, [c]) == Split(a[1..], [c]) + Split(b, [c])
    ensures Split(a + [c] + b, [c]) == Split(a, [c]) + Split(b, [c])
  {
    var s := a + [c] + b;
    assert s[0] == a[0];
    NotAtStart(s, c);
    NotAtStart(a, c);
    SplitTail(s, [c]);
    SplitTail(a, [c]);
    assert s[1..] == a[1..] + [c] + b;
    HeadCons(a[0], Split(s, [c]), Split(s[1..], [c]), Split(a, [c]), Split(a[1..], [c]), Split(b, [c]));
  }

  /** The sequence algebra behind `SplitAppendOther`. */
  lemma HeadCons(ch: char, whole: seq<string>, tail: seq<string>, left: seq<string>, leftTail: seq<string>, right: seq<string>)
    requires |tail| >= 1 && |leftTail| >= 1
    requires whole == [[ch] + tail[0]] + tail[1..]
    requires tail == leftTail + right
    requires left == [[ch] + leftTail[0]] + leftTail[1..]
    ensures whole == left + right
  {
    assert tail[0] == leftTail[0];
    assert tail[1..] == leftTail[1..] + right;
  }

  /** The number of pieces of a split on a character is one more than its count. */
  lemma {:induction false} SplitCount(s: string, c: char)
    ensures |Split(s, [c])| == CountChar(s, c) + 1
    decreases |s|
  {
    if s == [] {
      assert FindFirst(s, [c]) == None;
    } else {
      SplitCount(s[1..], c);
      if s[0] == c {
        assert s == [] + [c] + s[1..];
        SplitAppend([], c, s[1..]);
        assert FindFirst([], [c]) == None;
      } else {
        assert s[..1][0] == s[0];
        assert !OccursAt(s, [c], 0);
        SplitTail(s, [c]);
      }
    }
  }

  /** Python's `s.lstrip(c)`. */
  function LStrip(s: string, c: char): (r: string)
    ensures |r| <= |s| && r == s[|s| - |r|..]
    ensures r == [] || r[0] != c
    ensures forall k :: 0 <= k < |s| - |r| ==> s[k] == c
    decreases |s|
  {
    if s != [] && s[0] == c then LStrip(s[1..], c) else s
  }

  /** Python's `s.rstrip(c)`. */
  function RStrip(s: string, c: char): (r: string)
    ensures |r| <= |s| && r == s[..|r|]
    ensures r == [] || r[|r| - 1] != c
    ensures forall k :: |r| <= k < |s| ==> s[k] == c
    decreases |s|
  {
    if s != [] && s[|s| - 1] == c then RStrip(s[..|s| - 1], c) else s
  }

  /** `s` is `r` surrounded, from index `i` on, by runs of `c` only. */
  predicate PaddedBy(s: string, r: string, c: char, i: int)
  {
    && OccursAt(s, r, i)
    && (forall k :: 0 <= k < i ==> s[k] == c)
    && (forall k :: i + |r| <= k < |s| ==> s[k] == c)
  }

  /** Python's `s.strip(c)`: the string with every leading and trailing `c` removed. */
  function Strip(s: string, c: char): (r: string)
    ensures r == [] || (r[0] != c && r[|r| - 1] != c)
    ensures exists i :: PaddedBy(s, r, c, i)
  {
    var left := LStrip(s, c);
    var r := RStrip(left, c);
    StripPadded(s, c, left, r);
    r
  }

  lemma StripPadded(s: string, c: char, left: string, r: string)
    requires |left| <= |s| && left == s[|s| - |left|..]
    requires forall k :: 0 <= k < |s| - |left| ==> s[k] == c
    requires |r| <= |left| && r == left[..|r|]
    requires forall k :: |r| <= k < |left| ==> left[k] == c
    ensures PaddedBy(s, r, c, |s| - |left|)
  {
    var i := |s| - |left|;
    assert s[i..i + |r|] == left[..|r|];
    forall k | i + |r| <= k < |s|
      ensures s[k] == c
    {
      assert s[k] == left[k - i];
    }
  }

  /** Python's `s.rsplit(c, 1)[-1]`: what follows the last `c`, or all of `s`. */
  function AfterLast(s: string, c: char): (r: string)
    ensures c !in r
    ensures EndsWith(s, r)
    ensures |r| < |s| ==> s[|s| - |r| - 1] == c
    decreases |s|
  {
    if s == [] then []
    else if s[|s| - 1] == c then []
    else
      var p := s[..|s| - 1];
      var r' := AfterLast(p, c);
      AfterLastExtend(p, s[|s| - 1], r', c);
      assert p + [s[|s| - 1]] == s;
      r' + [s[|s| - 1]]
  }

  /** The contract of `AfterLast` carries over to one more character that is not `c`. */
  lemma AfterLastExtend(p: string, ch: char, r: string, c: char)
    requires c !in r && EndsWith(p, r) && (|r| < |p| ==> p[|p| - |r| - 1] == c)
    requires ch != c
    ensures c !in r + [ch]
    ensures EndsWith(p + [ch], r + [ch])
    ensures |r| < |p| ==> (p + [ch])[|p| - |r| - 1] == c
  {
    var s := p + [ch];
    assert s[|s| - |r + [ch]|..] == p[|p| - |r|..] + [ch];
  }

  /** What follows the last `c` is determined by the contract of `AfterLast`. */
  lemma {:induction false} AfterLastOf(x: string, c: char, t: string)
    requires c !in t
    ensures AfterLast(x + [c] + t, c) == t
    decreases |t|
  {
    var s := x + [c] + t;
    if t == [] {
      assert s[|s| - 1] == c;
    } else {
      var t' := t[..|t| - 1];
      assert s[..|s| - 1] == x + [c] + t';
      assert s[|s| - 1] == t[|t| - 1];
      AfterLastOf(x, c, t');
      assert t' + [t[|t| - 1]] == t;
    }
  }

  /** `replace` copies a stretch that cannot start an occurrence. */
  lemma ReplaceAllSkips(x: string, y: string, target: string, repl: string)
    requires |target| > 0 && target[0] !in x
    ensures ReplaceAll(x + y, target, repl) == x + ReplaceAll(y, target, repl)
  {
    forall i | 0 <= i < |x|
      ensures !OccursAt(x + y, target, i)
    {
      assert (x + y)[i] == x[i];
      FirstCharMismatch(x + y, target, i);
    }
    ReplaceAllSkipsFree(x, y, target, repl);
  }

  /** No occurrence starts at a character other than the pattern's first. */
  lemma FirstCharMismatch(s: string, pat: string, i: int)
    requires 0 <= i < |s| && |pat| > 0 && s[i] != pat[0]
    ensures !OccursAt(s, pat, i)
  {
    if i + |pat| <= |s| {
      assert s[i..i + |pat|][0] == s[i];
    }
  }

  /** `replace` rewrites an occurrence at the front and carries on after it. */
  lemma ReplaceAllAtFront(target: string, y: string, repl: string)
    requires |target| > 0
    ensures ReplaceAll(target + y, target, repl) == repl + ReplaceAll(y, target, repl)
  {
    var s := target + y;
    assert s[..|target|] == target;
    assert s[|target|..] == y;
  }

  /** `replace` keeps the first character of a string that does not start with the pattern. */
  lemma ReplaceAllStep(s: string, target: string, repl: string)
    requires |target| > 0 && s != []
    requires !StartsWith(s, target)
    ensures ReplaceAll(s, target, repl) == [s[0]] + ReplaceAll(s[1..], target, repl)
  {
    if |s| < |target| {
      assert ReplaceAll(s[1..], target, repl) == s[1..];
      assert [s[0]] + s[1..] == s;
    }
  }

  /** `replace` copies a stretch at which no occurrence starts. */
  lemma {:induction false} ReplaceAllSkipsFree(x: string, y: string, target: string, repl: string)
    requires |target| > 0
    requires forall i :: 0 <= i < |x| ==> !OccursAt(x + y, target, i)
    ensures ReplaceAll(x + y, target, repl) == x + ReplaceAll(y, target, repl)
    decreases |x|
  {
    if x == [] {
      assert x + y == y;
    } else {
      var x' := x[1..];
      FreeHead(x, y, target, repl);
      FreeTail(x, y, target);
      ReplaceAllSkipsFree(x', y, target, repl);
      ConsSplice(x, ReplaceAll(x + y, target, repl), ReplaceAll(x' + y, target, repl), ReplaceAll(y, target, repl));
    }
  }

  lemma ConsSplice(x: string, r1: string, r2: string, rest: string)
    requires x != [] && r1 == [x[0]] + r2 && r2 == x[1..] + rest
    ensures r1 == x + rest
  {
    assert [x[0]] + x[1..] == x;
  }

  /** `replace` copies the first character of `x + y` when no occurrence starts there. */
  lemma FreeHead(x: string, y: string, target: string, repl: string)
    requires |target| > 0 && x != []
    requires !OccursAt(x + y, target, 0)
    ensures ReplaceAll(x + y, target, repl) == [x[0]] + ReplaceAll(x[1..] + y, target, repl)
  {
    var s := x + y;
    assert s[1..] == x[1..] + y;
    StartsWithOccurs(s, target);
    ReplaceAllStep(s, target, repl);
  }

  /** No occurrence starts in `x[1..]` when none starts in `x`. */
  lemma FreeTail(x: string, y: string, target: string)
    requires x != []
    requires forall i :: 0 <= i < |x| ==> !OccursAt(x + y, target, i)
    ensures forall i :: 0 <= i < |x[1..]| ==> !OccursAt(x[1..] + y, target, i)
  {
    var s := x + y;
    assert s[1..] == x[1..] + y;
    forall i | 0 <= i < |x[1..]|
      ensures !OccursAt(x[1..] + y, target, i)
    {
      assert !OccursAt(s, target, i + 1);
      TailOccursAt(s, target, i);
    }
  }

  lemma StartsWithOccurs(s: string, pat: string)
    ensures StartsWith(s, pat) <==> OccursAt(s, pat, 0)
  {
  }

  lemma TailOccursAt(s: string, pat: string, i: nat)
    requires |s| > 0
    ensures OccursAt(s[1..], pat, i) <==> OccursAt(s, pat, i + 1)
  {
    if i + |pat| <= |s| - 1 {
      assert s[1..][i..i + |pat|] == s[i + 1..i + 1 + |pat|];
    }
  }

  /**
    A pattern without `c` that is longer than `x` cannot start inside
    `x + [c]`: it would have to cover the `c`.
  */
  lemma SeparatorBlocks(x: string, c: char, y: string, target: string)
    requires c !in target && |x| < |target|
    ensures forall i :: 0 <= i < |x| + 1 ==> !OccursAt(x + [c] + y, target, i)
  {
    var s := x + [c] + y;
    forall i | 0 <= i < |x| + 1
      ensures !OccursAt(s, target, i)
    {
      if OccursAt(s, target, i) {
        CharOfOccurrence(s, target, i, |x| - i);
        assert false;
      }
    }
  }

  /** The characters of an occurrence are the pattern's. */
  lemma CharOfOccurrence(s: string, pat: string, i: int, k: int)
    requires OccursAt(s, pat, i) && 0 <= k < |pat|
    ensures s[i + k] == pat[k]
  {
    assert s[i..i + |pat|][k] == s[i + k];
  }

  /** A pattern holding a character the string lacks does not occur in it. */
  lemma AbsentChar(s: string, pat: string, k: int)
    requires 0 <= k < |pat| && pat[k] !in s
    ensures !Contains(s, pat)
  {
    forall i | 0 <= i <= |s|
      ensures !OccursAt(s, pat, i)
    {
      if OccursAt(s, pat, i) {
        CharOfOccurrence(s, pat, i, k);
        assert false;
      }
    }
  }

  /** A mismatch inside the window rules out an occurrence. */
  lemma MismatchAt(s: string, pat: string, i: int, k: int)
    requires 0 <= i && 0 <= k < |pat| && i + k < |s| && s[i + k] != pat[k]
    ensures !OccursAt(s, pat, i)
  {
    if i + |pat| <= |s| {
      assert s[i..i + |pat|][k] == s[i + k];
    }
  }

  lemma NotInConcat(a: string, b: string, c: char)
    requires c !in a && c !in b
    ensures c !in a + b
  {
  }

  /** A mismatch inside the tail rules out `endswith`. */
  lemma NotEndsWithAt(s: string, suffix: string, k: int)
    requires |suffix| <= |s| && 0 <= k < |suffix| && s[|s| - |suffix| + k] != suffix[k]
    ensures !EndsWith(s, suffix)
  {
    assert s[|s| - |suffix|..][k] == s[|s| - |suffix| + k];
  }

  /** Appending the same text to both sides keeps `s` from ending with `suffix`. */
  lemma NotEndsWithAppend(s: string, suffix: string, t: string)
    requires !EndsWith(s, suffix)
    ensures !EndsWith(s + t, suffix + t)
  {
    if |suffix| <= |s| {
      var tail := (s + t)[|s| - |suffix|..];
      assert tail == s[|s| - |suffix|..] + t;
      assert tail[..|suffix|] == s[|s| - |suffix|..];
      assert (suffix + t)[..|suffix|] == suffix;
    }
  }

  /**
    A `/`-free `w` ends `p/base` only when it ends `base`: a longer
    tail would take in the `/`.
  */
  lemma NotEndsWithAfterSlash(p: string, base: string, w: string)
    requires '/' !in w && !EndsWith(base, w)
    ensures !EndsWith(p + "/" + base, w)
  {
    var s := p + "/" + base;
    if |w| <= |s| {
      if |w| <= |base| {
        assert s[|s| - |w|..] == base[|base| - |w|..];
      } else {
        var k := |w| - |base| - 1;
        assert s[|s| - |w| + k] == s[|p|] == '/';
        NotEndsWithAt(s, w, k);
      }
    }
  }

  /**
    A pattern `w/` whose only `/` is its last character starts at or
    before the first `/` of `x/y` only when `x` ends with `w`, and then
    only at `|x| - |w|`.
  */
  lemma SlashPatternMisses(x: string, y: string, w: string, i: int)
    requires '/' !in x && '/' !in w && !EndsWith(x, w)
    requires 0 <= i <= |x|
    ensures !OccursAt(x + "/" + y, w + "/", i)
  {
    var s := x + "/" + y;
    var pat := w + "/";
    var k := i + |w|;
    if k < |s| {
      if k < |x| {
        assert s[k] == x[k] && pat[|w|] == '/';
        MismatchAt(s, pat, i, |w|);
      } else if k == |x| {
        assert x[i..] != w;
        var j :| 0 <= j < |w| && x[i..][j] != w[j];
        assert s[i + j] == x[i..][j] && pat[j] == w[j];
        MismatchAt(s, pat, i, j);
      } else {
        var j := |x| - i;
        assert s[i + j] == '/' && pat[j] == w[j];
        MismatchAt(s, pat, i, j);
      }
    }
  }

  /** With `y` free of `/` as well, `w/` does not occur in `x/y` at all. */
  lemma SlashPatternAbsent(x: string, y: string, w: string)
    requires '/' !in x && '/' !in w && '/' !in y && !EndsWith(x, w)
    ensures !Contains(x + "/" + y, w + "/")
  {
    var s := x + "/" + y;
    forall i | 0 <= i <= |s|
      ensures !OccursAt(s, w + "/", i)
    {
      if i <= |x| {
        SlashPatternMisses(x, y, w, i);
      } else if i + |w| < |s| {
        assert s[i + |w|] == y[i + |w| - |x| - 1] && (w + "/")[|w|] == '/';
        MismatchAt(s, w + "/", i, |w|);
      }
    }
  }
}

=== FILE: tagged.dfy ===
/**
  What the translator does to the page MkDocs discovers, with directory
  URLs, for a top-level source file `<base>.<lang>.md`: its name is
  `<base>.<lang>`, its destination `<base>.<lang>/index.html` and its
  URL `<base>.<lang>/`.

  Each result is proved twice: for the code as written
  (`TranslatePageAsWritten`) and for the intended index handling
  (`TranslatePage`). On these pages the two agree whenever the base
  does not end with `index` and `<base>.<lang>` does not occur in
  `/index.html`, and on the language root when the language does not
  end with `index`.
*/
module TaggedPages {
  import opened Strings
  import opened Pages
  import opened Language
  import opened Translate

  /** The page record of `<base>.<lang>.md`. */
  function TaggedPage(base: string, lang: string, abs: string): File
  {
    var name := Tagged(base, lang);
    File(name + ".md", name, name + "/index.html", abs, name + "/", true)
  }

  /** Different bases give different names. */
  lemma TaggedDistinct(b1: string, b2: string, lang: string)
    requires b1 != b2
    ensures Tagged(b1, lang) != Tagged(b2, lang)
  {
    if |b1| != |b2| {
      assert |Tagged(b1, lang)| != |Tagged(b2, lang)|;
    } else {
      var k :| 0 <= k < |b1| && b1[k] != b2[k];
      assert Tagged(b1, lang)[k] == b1[k];
      assert Tagged(b2, lang)[k] == b2[k];
    }
  }

  /** Line 110: a base without `.` is what is left of the name. */
  lemma TaggedName(base: string, lang: string)
    requires '.' !in base
    ensures StripLangSuffix(Tagged(base, lang), lang) == base
  {
    var suffix := "." + lang;
    assert Tagged(base, lang) == base + suffix;
    ReplaceAllSkips(base, suffix, suffix, "");
    assert suffix + "" == suffix;
    ReplaceAllAtFront(suffix, "", "");
  }

  /** The segments of the destination path. */
  lemma TaggedSegments(base: string, lang: string)
    requires '/' !in base && '/' !in lang
    ensures Split(Tagged(base, lang) + "/index.html", "/") == [Tagged(base, lang), "index.html"]
    ensures DirSegments(Tagged(base, lang) + "/index.html") == [Tagged(base, lang)]
  {
    var parts := [Tagged(base, lang), "index.html"];
    assert Join(parts, "/") == Tagged(base, lang) + "/index.html";
    assert '/' !in parts[1];
    SplitJoin(parts, '/');
  }

  lemma IndexChars()
    ensures '.' !in "index" && '/' !in "index"
  {
  }

  /** Only `index.<lang>.md` is an index page in the sense of line 107. */
  lemma TaggedNotIndex(base: string, lang: string)
    requires '/' !in base && '/' !in lang && base != "index"
    ensures IndexDir(lang) !in DirSegments(Tagged(base, lang) + "/index.html")
  {
    TaggedSegments(base, lang);
    TaggedDistinct(base, "index", lang);
  }

  /** Replacing a name that starts the string and does not occur after it. */
  lemma ReplaceLeading(name: string, rest: string, repl: string)
    requires |name| > 0 && !Contains(rest, name)
    ensures ReplaceAll(name + rest, name, repl) == repl + rest
  {
    ReplaceAllAtFront(name, rest, repl);
  }

  /**
    Lines 107 and 112-122 with the intended index test and rename, for a
    page that is not a language root: the directory is renamed and the
    file name is kept.
  */
  lemma TaggedDest(base: string, lang: string)
    requires '/' !in base && '/' !in lang && base != "index"
    ensures DestPath(Tagged(base, lang) + "/index.html", lang, Tagged(base, lang), base)
      == lang + "/" + base + "/index.html"
  {
    var name := Tagged(base, lang);
    TaggedNotIndex(base, lang);
    DestPathRenames(name + "/index.html", lang, name, base);
    RenameTaggedPath(base, lang);
  }

  /** The directory `<base>.<lang>` becomes `<base>`, and the file name stays. */
  lemma RenameTaggedPath(base: string, lang: string)
    requires '/' !in base && '/' !in lang && base != "index"
    ensures RenameInPath(Tagged(base, lang) + "/index.html", Tagged(base, lang), base) == base + "/index.html"
  {
    var name := Tagged(base, lang);
    TaggedSegments(base, lang);
    FileNameKept(base, lang);
    RenameTwo(name, "index.html", name, base);
    JoinTwo(base, "index.html");
  }

  /** Renaming the segments of a two-segment path. */
  lemma RenameTwo(a: string, b: string, oldName: string, newName: string)
    ensures RenameSegments([a, b], oldName, newName) == [RenameSegment(a, oldName, newName), RenameSegment(b, oldName, newName)]
  {
  }

  lemma JoinTwo(a: string, b: string)
    ensures Join([a, b], "/") == a + "/" + b
  {
    assert [a, b][1..] == [b];
  }

  /** The only `.` of `index.html` is its sixth character. */
  lemma FileNameDot(i: int)
    requires 0 <= i < |"index.html"| && i != 5
    ensures "index.html"[i] != '.'
  {
  }

  /** `<base>.<lang>` is not the file name `index.html`, for a base other than `index`. */
  lemma NotFileName(base: string, lang: string)
    requires base != "index"
    ensures Tagged(base, lang) != "index.html"
  {
    var name := Tagged(base, lang);
    if |name| == |"index.html"| {
      if |base| == 5 {
        var k :| 0 <= k < 5 && base[k] != "index"[k];
        assert name[k] == base[k];
        assert "index.html"[k] == "index"[k];
      } else {
        FileNameDot(|base|);
        assert name[|base|] == '.';
      }
    }
  }

  /** `index.html` does not start with `<base>.<lang>.`: that prefix holds two `.`, the file name one. */
  lemma NotFileNamePrefix(base: string, lang: string)
    ensures !StartsWith("index.html", Tagged(base, lang) + ".")
  {
    var p := Tagged(base, lang) + ".";
    if |p| <= |"index.html"| {
      var k := if |base| != 5 then |base| else |p| - 1;
      assert p[k] == '.';
      FileNameDot(k);
      assert "index.html"[..|p|][k] != p[k];
    }
  }

  /** The file name `index.html` keeps its text when `<base>.<lang>` is renamed. */
  lemma FileNameKept(base: string, lang: string)
    requires base != "index"
    ensures RenameSegment("index.html", Tagged(base, lang), base) == "index.html"
  {
    NotFileName(base, lang);
    NotFileNamePrefix(base, lang);
  }

  /** The index directory segment of `index.<lang>.md`. */
  lemma RootIsIndex(lang: string)
    requires '/' !in lang
    ensures DirSegments(Tagged("index", lang) + "/index.html") == [IndexDir(lang)]
    ensures FileSegment(Tagged("index", lang) + "/index.html") == "index.html"
  {
    TaggedSegments("index", lang);
  }

  /** Collapsing the only directory leaves the file name. */
  lemma CollapseRoot(dest: string, lang: string)
    requires DirSegments(dest) == [IndexDir(lang)]
    requires FileSegment(dest) == "index.html"
    ensures CollapseIndexDir(dest, lang) == "index.html"
  {
    assert Without([IndexDir(lang)], IndexDir(lang)) == [];
    assert [] + ["index.html"] == ["index.html"];
  }

  /** Lines 125-133: the URL put under `<lang>/` with the name renamed. */
  lemma TaggedRename(host: Host, base: string, lang: string)
    requires '/' !in base && '/' !in lang
    requires host.quote(Tagged(base, lang)) == Tagged(base, lang) && host.quote(base) == base
    ensures RenameInUrl(host, PrefixUrl(lang, Tagged(base, lang) + "/"), Tagged(base, lang), base)
      == lang + "/" + base + "/"
  {
    var name := Tagged(base, lang);
    var url := lang + "/" + (name + "/");
    assert PrefixUrl(lang, name + "/") == url;
    assert url == lang + ['/'] + (name + "/");
    SeparatorBlocks(lang, '/', name + "/", name);
    ReplaceAllSkipsFree(lang + "/", name + "/", name, base);
    ReplaceAllAtFront(name, "/", base);
  }

  /** Lines 125-139 with the intended index step, for a page that is not a language root. */
  lemma TaggedUrl(host: Host, base: string, lang: string)
    requires '/' !in base && '/' !in lang && base != "index"
    requires host.quote(Tagged(base, lang)) == Tagged(base, lang) && host.quote(base) == base
    ensures StripIndex(RenameInUrl(host, PrefixUrl(lang, Tagged(base, lang) + "/"), Tagged(base, lang), base))
      == lang + "/" + base + "/"
  {
    TaggedRename(host, base, lang);
    var parts := [lang, base, ""];
    assert Join(parts[2..], "/") == "";
    assert Join(parts[1..], "/") == base + "/" + "";
    assert Join(parts, "/") == lang + "/" + base + "/";
    SplitJoin(parts, '/');
  }

  /**
    Lines 90-140 with the intended index handling, on `<base>.<lang>.md`
    for a configured language: the copy is named `<base>`, is written to `<lang>/<base>/index.html` and
    is served at `<lang>/<base>/`.
  */
  lemma TranslateTaggedPage(cfg: Config, host: Host, base: string, lang: string, abs: string)
    requires lang in cfg.languages && '.' !in lang && '/' !in lang
    requires '.' !in base && '/' !in base && base != "index"
    requires host.quote(Tagged(base, lang)) == Tagged(base, lang) && host.quote(base) == base
    ensures
      var dest := lang + "/" + base + "/index.html";
      TranslatePage(cfg, host, TaggedPage(base, lang, abs))
        == TaggedPage(base, lang, abs).(name := base, destPath := dest,
                                        absDestPath := host.join(host.siteDir, dest),
                                        url := lang + "/" + base + "/")
  {
    GetLangOfTaggedUrl(cfg, base, lang);
    TaggedName(base, lang);
    TranslatePageSteps(cfg, host, TaggedPage(base, lang, abs), lang, base);
    TaggedDest(base, lang);
    TaggedUrl(host, base, lang);
  }

  /** Lines 107 and 112-122 with the intended index test, for `index.<lang>.md`: the `index.<lang>` directory is dropped. */
  lemma RootDest(lang: string)
    requires '/' !in lang
    ensures DestPath(Tagged("index", lang) + "/index.html", lang, Tagged("index", lang), "index")
      == lang + "/index.html"
  {
    var dest := Tagged("index", lang) + "/index.html";
    RootIsIndex(lang);
    DestPathCollapses(dest, lang, Tagged("index", lang), "index");
    CollapseRoot(dest, lang);
  }

  /** Lines 125-139 with the intended index step, for `index.<lang>.md`: the URL becomes `<lang>/`. */
  lemma RootUrl(host: Host, lang: string)
    requires '/' !in lang
    requires host.quote(Tagged("index", lang)) == Tagged("index", lang) && host.quote("index") == "index"
    ensures StripIndex(RenameInUrl(host, PrefixUrl(lang, Tagged("index", lang) + "/"), Tagged("index", lang), "index"))
      == lang + "/"
  {
    TaggedRename(host, "index", lang);
    var url := lang + "/" + "index" + "/";
    assert url[|url| - 7] == '/';
    assert EndsWith(url, "index/");
    assert url[..|url| - 6] == lang + "/";
  }

  /**
    Lines 90-140 with the intended index handling, on `index.<lang>.md`
    for a configured language: the copy is the language's root page, written to `<lang>/index.html`
    and served at `<lang>/`.
  */
  lemma TranslateLanguageRoot(cfg: Config, host: Host, lang: string, abs: string)
    requires lang in cfg.languages && '.' !in lang && '/' !in lang
    requires host.quote(Tagged("index", lang)) == Tagged("index", lang) && host.quote("index") == "index"
    ensures
      var dest := lang + "/index.html";
      TranslatePage(cfg, host, TaggedPage("index", lang, abs))
        == TaggedPage("index", lang, abs).(name := "index", destPath := dest,
                                           absDestPath := host.join(host.siteDir, dest),
                                           url := lang + "/")
  {
    GetLangOfTaggedUrl(cfg, "index", lang);
    IndexChars();
    TaggedName("index", lang);
    TranslatePageSteps(cfg, host, TaggedPage("index", lang, abs), lang, "index");
    RootDest(lang);
    RootUrl(host, lang);
  }

  /**
    The destination of `<base>.<lang>.md` holds the marker
    `index.<lang>/` of line 107 only when the base ends with `index`.
  */
  lemma TaggedNoMarker(base: string, lang: string)
    requires '/' !in base && '/' !in lang && !EndsWith(base, "index")
    ensures !Contains(Tagged(base, lang) + "/index.html", IndexMarker(lang))
  {
    var x := Tagged(base, lang);
    var w := IndexDir(lang);
    IndexChars();
    NotInConcat(base, ".", '/');
    NotInConcat(base + ".", lang, '/');
    NotInConcat("index", ".", '/');
    NotInConcat("index" + ".", lang, '/');
    NotEndsWithAppend(base, "index", ".");
    NotEndsWithAppend(base + ".", "index" + ".", lang);
    SlashPatternAbsent(x, "index.html", w);
    assert x + "/index.html" == x + "/" + "index.html";
  }

  /**
    Lines 107 and 112-122 as written, for a base that does not end with
    `index`: no marker is found, so the name is renamed in the path.
  */
  lemma TaggedDestAsWritten(base: string, lang: string)
    requires '/' !in base && '/' !in lang && !EndsWith(base, "index")
    requires !Contains("/index.html", Tagged(base, lang))
    ensures DestPathAsWritten(Tagged(base, lang) + "/index.html", lang, Tagged(base, lang), base)
      == lang + "/" + base + "/index.html"
  {
    var name := Tagged(base, lang);
    TaggedNoMarker(base, lang);
    assert |name| > 0;
    ReplaceLeading(name, "/index.html", base);
  }

  /**
    Lines 125-139 as written, for a base that does not end with
    `index`: the renamed URL does not end with `index/`, so it is kept.
  */
  lemma TaggedUrlAsWritten(host: Host, base: string, lang: string)
    requires '/' !in base && '/' !in lang && !EndsWith(base, "index")
    requires host.quote(Tagged(base, lang)) == Tagged(base, lang) && host.quote(base) == base
    ensures StripIndexAsWritten(RenameInUrl(host, PrefixUrl(lang, Tagged(base, lang) + "/"), Tagged(base, lang), base))
      == lang + "/" + base + "/"
  {
    TaggedRename(host, base, lang);
    IndexChars();
    NotEndsWithAfterSlash(lang, base, "index");
    NotEndsWithAppend(lang + "/" + base, "index", "/");
    IndexSlashSpelled();
  }

  /**
    Lines 90-140 as written, on `<base>.<lang>.md` for a configured
    language and a base that does not end with `index`: the copy is
    named `<base>`, is written to `<lang>/<base>/index.html` and is
    served at `<lang>/<base>/`.
  */
  lemma TranslateTaggedPageAsWritten(cfg: Config, host: Host, base: string, lang: string, abs: string)
    requires lang in cfg.languages && '.' !in lang && '/' !in lang
    requires '.' !in base && '/' !in base && !EndsWith(base, "index")
    requires !Contains("/index.html", Tagged(base, lang))
    requires host.quote(Tagged(base, lang)) == Tagged(base, lang) && host.quote(base) == base
    ensures
      var dest := lang + "/" + base + "/index.html";
      TranslatePageAsWritten(cfg, host, TaggedPage(base, lang, abs))
        == TaggedPage(base, lang, abs).(name := base, destPath := dest,
                                        absDestPath := host.join(host.siteDir, dest),
                                        url := lang + "/" + base + "/")
  {
    GetLangOfTaggedUrl(cfg, base, lang);
    TaggedName(base, lang);
    TranslatePageAsWrittenSteps(cfg, host, TaggedPage(base, lang, abs), lang, base);
    TaggedDestAsWritten(base, lang);
    TaggedUrlAsWritten(host, base, lang);
  }

  /** Lines 107 and 112-116 as written, for `index.<lang>.md`: the marker is cut from the front. */
  lemma RootDestAsWritten(lang: string)
    requires '/' !in lang
    ensures DestPathAsWritten(Tagged("index", lang) + "/index.html", lang, Tagged("index", lang), "index")
      == lang + "/index.html"
  {
    var m := IndexMarker(lang);
    var dest := Tagged("index", lang) + "/index.html";
    RootDestSpelled(lang);
    assert OccursAt(dest, m, 0);
    DestPathAsWrittenCuts(dest, lang, Tagged("index", lang), "index");
    RootMarkerCut(lang);
  }

  /** The destination of `index.<lang>.md` is the marker followed by the file name. */
  lemma RootDestSpelled(lang: string)
    ensures Tagged("index", lang) + "/index.html" == IndexMarker(lang) + "index.html"
  {
  }

  /** Cutting the marker from the front of `<marker>index.html` leaves the file name. */
  lemma RootMarkerCut(lang: string)
    ensures ReplaceAll(IndexMarker(lang) + "index.html", IndexMarker(lang), "") == "index.html"
  {
    var m := IndexMarker(lang);
    ReplaceAllAtFront(m, "index.html", "");
    FileNameChars();
    AbsentChar("index.html", m, |m| - 1);
  }

  lemma FileNameChars()
    ensures '/' !in "index.html"
  {
  }

  /**
    Lines 125-139 as written, for `index.<lang>.md` with a language that
    does not end with `index`: the one `index/` is removed.
  */
  lemma RootUrlAsWritten(host: Host, lang: string)
    requires '/' !in lang && !EndsWith(lang, "index")
    requires host.quote(Tagged("index", lang)) == Tagged("index", lang) && host.quote("index") == "index"
    ensures StripIndexAsWritten(RenameInUrl(host, PrefixUrl(lang, Tagged("index", lang) + "/"), Tagged("index", lang), "index"))
      == lang + "/"
  {
    TaggedRename(host, "index", lang);
    RootUrlSpelled(lang);
    IndexSlashCut(lang);
  }

  /** The renamed URL of `index.<lang>.md` ends with `index/`. */
  lemma RootUrlSpelled(lang: string)
    ensures lang + "/" + "index" + "/" == lang + "/" + "index/"
    ensures EndsWith(lang + "/" + "index/", "index/")
  {
    var url := lang + "/" + "index/";
    assert url[|url| - 6..] == "index/";
  }

  /** Only the trailing `index/` of `<lang>/index/` is cut, when `<lang>` does not end with `index`. */
  lemma IndexSlashCut(lang: string)
    requires '/' !in lang && !EndsWith(lang, "index")
    ensures ReplaceAll(lang + "/" + "index/", "index/", "") == lang + "/"
  {
    IndexChars();
    IndexSlashSpelled();
    forall i | 0 <= i < |lang + "/"|
      ensures !OccursAt(lang + "/" + "index/", "index/", i)
    {
      SlashPatternMisses(lang, "index/", "index", i);
    }
    ReplaceAllSkipsFree(lang + "/", "index/", "index/", "");
    CutWhole("index/");
  }

  /** Cutting a whole non-empty string out of itself leaves nothing. */
  lemma CutWhole(t: string)
    requires |t| > 0
    ensures ReplaceAll(t, t, "") == ""
  {
    assert t + "" == t;
    ReplaceAllAtFront(t, "", "");
    assert !Contains("", t);
  }

  /**
    Lines 90-140 as written, on `index.<lang>.md` for a configured
    language that does not end with `index`: the copy is the language's
    root page, written to `<lang>/index.html` and served at `<lang>/`.
  */
  lemma TranslateLanguageRootAsWritten(cfg: Config, host: Host, lang: string, abs: string)
    requires lang in cfg.languages && '.' !in lang && '/' !in lang && !EndsWith(lang, "index")
    requires host.quote(Tagged("index", lang)) == Tagged("index", lang) && host.quote("index") == "index"
    ensures
      var dest := lang + "/index.html";
      TranslatePageAsWritten(cfg, host, TaggedPage("index", lang, abs))
        == TaggedPage("index", lang, abs).(name := "index", destPath := dest,
                                           absDestPath := host.join(host.siteDir, dest),
                                           url := lang + "/")
  {
    GetLangOfTaggedUrl(cfg, "index", lang);
    IndexChars();
    TaggedName("index", lang);
    TranslatePageAsWrittenSteps(cfg, host, TaggedPage("index", lang, abs), lang, "index");
    RootDestAsWritten(lang);
    RootUrlAsWritten(host, lang);
  }

  /**
    On `<base>.<lang>.md` with a base that does not end with `index`,
    `translate_page` as written and with the intended index handling
    give the same copy.
  */
  lemma TaggedPageAgrees(cfg: Config, host: Host, base: string, lang: string, abs: string)
    requires lang in cfg.languages && '.' !in lang && '/' !in lang
    requires '.' !in base && '/' !in base && !EndsWith(base, "index")
    requires !Contains("/index.html", Tagged(base, lang))
    requires host.quote(Tagged(base, lang)) == Tagged(base, lang) && host.quote(base) == base
    ensures TranslatePageAsWritten(cfg, host, TaggedPage(base, lang, abs)) == TranslatePage(cfg, host, TaggedPage(base, lang, abs))
  {
    assert base != "index" by {
      if |base| == 5 {
        assert base[|base| - 5..] == base;
      }
    }
    TranslateTaggedPageAsWritten(cfg, host, base, lang, abs);
    TranslateTaggedPage(cfg, host, base, lang, abs);
  }

  /**
    On `index.<lang>.md` with a language that does not end with
    `index`, both translators make the same language root page.
  */
  lemma LanguageRootAgrees(cfg: Config, host: Host, lang: string, abs: string)
    requires lang in cfg.languages && '.' !in lang && '/' !in lang && !EndsWith(lang, "index")
    requires host.quote(Tagged("index", lang)) == Tagged("index", lang) && host.quote("index") == "index"
    ensures TranslatePageAsWritten(cfg, host, TaggedPage("index", lang, abs)) == TranslatePage(cfg, host, TaggedPage("index", lang, abs))
  {
    TranslateLanguageRootAsWritten(cfg, host, lang, abs);
    TranslateLanguageRoot(cfg, host, lang, abs);
  }
}

=== FILE: theme.dfy ===
/** The language pick of the `on_page_context` hook. */
module Theme {
  import opened Wrappers
  import opened Strings
  import opened Language

  /**
    Lines 161-165: the first configured language, in the order of the
    configuration, whose `<lang>/` is a prefix of the page URL.
  */
  function PageLanguage(languages: seq<string>, url: string): (r: Option<string>)
    ensures r.None? <==> forall i :: 0 <= i < |languages| ==> !StartsWith(url, languages[i] + "/")
    ensures r.Some? ==>
      exists i :: 0 <= i < |languages| && languages[i] == r.value
        && StartsWith(url, r.value + "/")
        && forall j :: 0 <= j < i ==> !StartsWith(url, languages[j] + "/")
  {
    if languages == [] then None
    else if StartsWith(url, languages[0] + "/") then Some(languages[0])
    else PageLanguage(languages[1..], url)
  }

  /**
    Lines 161-166: the theme language after the hook. It becomes the
    page's language only under the `material` theme and only when the
    page lies under some configured language; otherwise it is left as
    it was.
  */
  function OnPageContext(cfg: Config, themeName: string, current: string, url: string): (r: string)
    ensures themeName != "material" ==> r == current
    ensures PageLanguage(cfg.languages, url).None? ==> r == current
    ensures themeName == "material" && PageLanguage(cfg.languages, url).Some? ==>
      r == PageLanguage(cfg.languages, url).value
    ensures r == current || (r in cfg.languages && StartsWith(url, r + "/"))
  {
    var picked := PageLanguage(cfg.languages, url);
    if picked.Some? && themeName == "material" then picked.value else current
  }

  /** Two `/`-free names followed by `/` are prefixes of one another only when they are equal. */
  lemma SlashPrefix(a: string, b: string, rest: string)
    requires '/' !in a && '/' !in b
    requires StartsWith(b + "/" + rest, a + "/")
    ensures a == b
  {
    var u := b + "/" + rest;
    SlashAfterPrefix(u, a);
    if |a| < |b| {
      NoSlashBefore(b, "/" + rest, |a|);
      assert false;
    } else if |a| > |b| {
      SlashAfter(b, rest);
      NoSlashInPrefix(u, a, |b|);
      assert false;
    } else {
      assert a == (a + "/")[..|a|] == u[..|a|] == b;
    }
  }

  lemma SlashAfterPrefix(u: string, a: string)
    requires StartsWith(u, a + "/")
    ensures |a| < |u| && u[|a|] == '/'
  {
    assert u[|a|] == (a + "/")[|a|];
  }

  lemma NoSlashBefore(b: string, tail: string, k: int)
    requires '/' !in b && 0 <= k < |b|
    ensures (b + tail)[k] != '/'
  {
    assert (b + tail)[k] == b[k];
  }

  lemma SlashAfter(b: string, rest: string)
    ensures (b + "/" + rest)[|b|] == '/'
  {
  }

  lemma NoSlashInPrefix(u: string, a: string, k: int)
    requires StartsWith(u, a + "/") && '/' !in a && 0 <= k < |a|
    ensures u[k] != '/'
  {
    assert u[k] == (a + "/")[k] == a[k];
  }

  /**
    Under the `material` theme, a page under `<lang>/` of a configured
    language gets that language as its theme language, whatever it was
    before, when no configured language contains `/`.
  */
  lemma TranslatedPageLanguage(cfg: Config, lang: string, rest: string)
    requires lang in cfg.languages
    requires forall i :: 0 <= i < |cfg.languages| ==> '/' !in cfg.languages[i]
    ensures OnPageContext(cfg, "material", lang, lang + "/" + rest) == lang
    ensures forall current :: OnPageContext(cfg, "material", current, lang + "/" + rest) == lang
  {
    var url := lang + "/" + rest;
    assert StartsWith(url, lang + "/");
    var k :| 0 <= k < |cfg.languages| && cfg.languages[k] == lang;
    assert !(forall i :: 0 <= i < |cfg.languages| ==> !StartsWith(url, cfg.languages[i] + "/"));
    var picked := PageLanguage(cfg.languages, url);
    var i :| 0 <= i < |cfg.languages| && cfg.languages[i] == picked.value && StartsWith(url, picked.value + "/");
    SlashPrefix(picked.value, lang, rest);
  }
}

=== FILE: translate.dfy ===
/**
  The page translator `translate_page`: the rewrite of a page record's
  name, destination path and URL into its copy under `<lang>/`.

  Two steps of the translator test for `index`, and one renames the
  page, with substring operations where a path segment is meant.
  `DestPathAsWritten`, `StripIndexAsWritten` and
  `TranslatePageAsWritten` model the code as written, and the
  partitioner `Partition.OnFiles` applies them; `DestPath` (with
  `RenameInPath`), `StripIndex` and `TranslatePage` are the
  segment-wise rewrites the code evidently intends, applied by
  `Partition.OnFilesIntended`.
*/
module Translate {
  import opened Strings
  import opened Pages
  import opened Language

  /**
    What the translator takes from the host: `urllib.parse.quote`, the
    joining of the site directory with a relative path, and the site
    directory itself. Both functions are left uninterpreted.
  */
  datatype Host = Host(quote: string -> string, join: (string, string) -> string, siteDir: string)

  /** The segments of `s` other than `x`, in order. */
  function Without(s: seq<string>, x: string): (r: seq<string>)
    ensures forall y :: y in r <==> y in s && y != x
    ensures |r| <= |s|
  {
    if s == [] then []
    else (if s[0] == x then [] else [s[0]]) + Without(s[1..], x)
  }

  /** The `/`-separated directory segments of a path (all but the last). */
  function DirSegments(path: string): seq<string>
  {
    var segs := Split(path, "/");
    segs[..|segs| - 1]
  }

  /** The last `/`-separated segment of a path (the file name, or "" after a trailing `/`). */
  function FileSegment(path: string): string
  {
    var segs := Split(path, "/");
    segs[|segs| - 1]
  }

  /** No segment of a path contains `/`. */
  lemma SegmentsSlashFree(path: string)
    ensures forall k :: 0 <= k < |Split(path, "/")| ==> '/' !in Split(path, "/")[k]
  {
    SplitPiecesFree(path, "/");
    forall k | 0 <= k < |Split(path, "/")|
      ensures '/' !in Split(path, "/")[k]
    {
      ContainsChar(Split(path, "/")[k], '/');
    }
  }

  /** Line 110: the page name with every `.<lang>` removed. */
  function StripLangSuffix(name: string, lang: string): (r: string)
    ensures r == Join(Split(name, "." + lang), "")
    ensures !Contains(name, "." + lang) ==> r == name
  {
    ReplaceAllIsJoinOfSplit(name, "." + lang, "");
    ReplaceAll(name, "." + lang, "")
  }

  /** `<base>.<lang>`: a name carrying a language suffix. */
  function Tagged(base: string, lang: string): string
  {
    base + "." + lang
  }

  /** The directory MkDocs makes for the page `index.<lang>.md`. */
  function IndexDir(lang: string): string
  {
    Tagged("index", lang)
  }

  /** The substring the code tests and removes for an index page (lines 107, 112-116). */
  function IndexMarker(lang: string): string
  {
    IndexDir(lang) + "/"
  }

  /**
    Lines 107 and 112-122 as written: when `index.<lang>/` occurs
    anywhere in the path, every occurrence is cut out; otherwise every
    occurrence of the old name is replaced by the new one. The result
    is then put under `<lang>/`.
  */
  function DestPathAsWritten(dest: string, lang: string, oldName: string, newName: string): (r: string)
    ensures StartsWith(r, lang + "/")
    ensures Contains(dest, IndexMarker(lang)) ==>
      r[|lang| + 1..] == Join(Split(dest, IndexMarker(lang)), "")
    ensures !Contains(dest, IndexMarker(lang)) && |oldName| > 0 ==>
      r[|lang| + 1..] == Join(Split(dest, oldName), newName)
    ensures !Contains(dest, IndexMarker(lang)) && !Contains(dest, oldName) && |oldName| > 0 ==>
      r[|lang| + 1..] == dest
  {
    var rest :=
      if Contains(dest, IndexMarker(lang)) then
        ReplaceAllIsJoinOfSplit(dest, IndexMarker(lang), "");
        ReplaceAll(dest, IndexMarker(lang), "")
      else
        if |oldName| > 0 then ReplaceAllIsJoinOfSplit(dest, oldName, newName); ReplaceAll(dest, oldName, newName)
        else ReplaceAll(dest, oldName, newName);
    var r := lang + "/" + rest;
    assert r[|lang| + 1..] == rest;
    r
  }

  /** A path holding the marker has every occurrence of it cut out (lines 112-116). */
  lemma DestPathAsWrittenCuts(dest: string, lang: string, oldName: string, newName: string)
    requires Contains(dest, IndexMarker(lang))
    ensures DestPathAsWritten(dest, lang, oldName, newName) == lang + "/" + ReplaceAll(dest, IndexMarker(lang), "")
  {
  }

  /** A path without the marker has the old name replaced by the new one (lines 117-121). */
  lemma DestPathAsWrittenRenames(dest: string, lang: string, oldName: string, newName: string)
    requires !Contains(dest, IndexMarker(lang))
    ensures DestPathAsWritten(dest, lang, oldName, newName) == lang + "/" + ReplaceAll(dest, oldName, newName)
  {
  }

  /**
    The intended collapse of an index page's path: every directory
    segment `index.<lang>` is dropped, the other directory segments and
    the file name are kept in order.
  */
  function CollapseIndexDir(dest: string, lang: string): (r: string)
    ensures DirSegments(r) == Without(DirSegments(dest), IndexDir(lang))
    ensures FileSegment(r) == FileSegment(dest)
  {
    var segs := Split(dest, "/");
    var parts := Without(DirSegments(dest), IndexDir(lang)) + [FileSegment(dest)];
    SegmentsSlashFree(dest);
    forall k | 0 <= k < |parts|
      ensures '/' !in parts[k]
    {
      if k < |parts| - 1 {
        assert parts[k] in DirSegments(dest);
      }
    }
    SplitJoin(parts, '/');
    Join(parts, "/")
  }

  /**
    The intended rename of one path segment (lines 117-121): the page's
    own segment, which is its old name alone (its directory) or followed
    by an extension (its file), takes the new name; any other segment is
    kept.
  */
  function RenameSegment(seg: string, oldName: string, newName: string): string
  {
    if seg == oldName then newName
    else if StartsWith(seg, oldName + ".") then newName + seg[|oldName|..]
    else seg
  }

  /** Every segment of a path renamed by `RenameSegment`. */
  function RenameSegments(segs: seq<string>, oldName: string, newName: string): seq<string>
  {
    seq(|segs|, k requires 0 <= k < |segs| => RenameSegment(segs[k], oldName, newName))
  }

  /**
    Lines 117-121 as intended: the page's own segment of the path is
    renamed, and every other segment, the file name `index.html` among
    them, keeps its text.
  */
  function RenameInPath(dest: string, oldName: string, newName: string): (r: string)
    ensures '/' !in newName ==>
      && |Split(r, "/")| == |Split(dest, "/")|
      && forall k :: 0 <= k < |Split(dest, "/")| ==>
           Split(r, "/")[k] == RenameSegment(Split(dest, "/")[k], oldName, newName)
    ensures oldName == newName ==> r == dest
  {
    RenameInPathFacts(dest, oldName, newName);
    Join(RenameSegments(Split(dest, "/"), oldName, newName), "/")
  }

  /** Splitting the joined renamed segments gives them back; renaming to the same name changes nothing. */
  lemma RenameInPathFacts(dest: string, oldName: string, newName: string)
    ensures '/' !in newName ==>
      Split(Join(RenameSegments(Split(dest, "/"), oldName, newName), "/"), "/") == RenameSegments(Split(dest, "/"), oldName, newName)
    ensures oldName == newName ==> Join(RenameSegments(Split(dest, "/"), oldName, newName), "/") == dest
  {
    var segs := Split(dest, "/");
    var parts := RenameSegments(segs, oldName, newName);
    if '/' !in newName {
      RenamedSegmentsFree(dest, oldName, newName);
      SplitJoin(parts, '/');
    }
    if oldName == newName {
      forall k | 0 <= k < |segs|
        ensures parts[k] == segs[k]
      {
        KeepSegment(segs[k], oldName);
      }
      assert parts == segs;
      JoinSplit(dest, "/");
    }
  }

  /** The renamed segments hold no `/` when the new name holds none. */
  lemma RenamedSegmentsFree(dest: string, oldName: string, newName: string)
    requires '/' !in newName
    ensures forall k :: 0 <= k < |Split(dest, "/")| ==> '/' !in RenameSegments(Split(dest, "/"), oldName, newName)[k]
  {
    var segs := Split(dest, "/");
    SegmentsSlashFree(dest);
    forall k | 0 <= k < |segs|
      ensures '/' !in RenameSegments(segs, oldName, newName)[k]
    {
      if segs[k] != oldName && StartsWith(segs[k], oldName + ".") {
        assert segs[k][|oldName|..] == segs[k][|oldName|..|segs[k]|];
        NotInConcat(newName, segs[k][|oldName|..], '/');
      }
    }
  }

  /** Renaming a segment to the name it already has keeps it. */
  lemma KeepSegment(seg: string, name: string)
    ensures RenameSegment(seg, name, name) == seg
  {
    if seg != name && StartsWith(seg, name + ".") {
      assert seg == seg[..|name|] + seg[|name|..];
    }
  }

  /**
    Lines 107 and 112-122 as intended: a page is an index page when one
    of its directory segments is `index.<lang>`, and then exactly those
    segments are dropped; otherwise the page's own segment is renamed.
    The result is put under `<lang>/`.
  */
  function DestPath(dest: string, lang: string, oldName: string, newName: string): (r: string)
    ensures StartsWith(r, lang + "/")
    ensures IndexDir(lang) in DirSegments(dest) ==>
      && DirSegments(r[|lang| + 1..]) == Without(DirSegments(dest), IndexDir(lang))
      && FileSegment(r[|lang| + 1..]) == FileSegment(dest)
    ensures IndexDir(lang) !in DirSegments(dest) && '/' !in newName ==>
      && |Split(r[|lang| + 1..], "/")| == |Split(dest, "/")|
      && forall k :: 0 <= k < |Split(dest, "/")| ==>
           Split(r[|lang| + 1..], "/")[k] == RenameSegment(Split(dest, "/")[k], oldName, newName)
  {
    var rest :=
      if IndexDir(lang) in DirSegments(dest) then CollapseIndexDir(dest, lang)
      else RenameInPath(dest, oldName, newName);
    var r := lang + "/" + rest;
    assert r[|lang| + 1..] == rest;
    r
  }

  /** A page that is not an index page has its own segment renamed (lines 117-121). */
  lemma DestPathRenames(dest: string, lang: string, oldName: string, newName: string)
    requires IndexDir(lang) !in DirSegments(dest)
    ensures DestPath(dest, lang, oldName, newName) == lang + "/" + RenameInPath(dest, oldName, newName)
  {
  }

  /** An index page has its path collapsed (lines 112-116). */
  lemma DestPathCollapses(dest: string, lang: string, oldName: string, newName: string)
    requires IndexDir(lang) in DirSegments(dest)
    ensures DestPath(dest, lang, oldName, newName) == lang + "/" + CollapseIndexDir(dest, lang)
  {
  }

  /** Lines 125-128: the URL moved under `<lang>/`, the site root `.` becoming `<lang>/` itself. */
  function PrefixUrl(lang: string, url: string): (r: string)
    ensures StartsWith(r, lang + "/")
    ensures url == "." ==> r == lang + "/"
    ensures url != "." ==> r[|lang| + 1..] == url
  {
    if url == "." then lang + "/" else lang + "/" + url
  }

  /** Lines 130-133: every occurrence of the quoted old name replaced by the quoted new name. */
  function RenameInUrl(host: Host, url: string, oldName: string, newName: string): (r: string)
    ensures |host.quote(oldName)| > 0 ==>
      r == Join(Split(url, host.quote(oldName)), host.quote(newName))
    ensures |host.quote(oldName)| > 0 && !Contains(url, host.quote(oldName)) ==> r == url
  {
    if |host.quote(oldName)| > 0 then
      ReplaceAllIsJoinOfSplit(url, host.quote(oldName), host.quote(newName));
      ReplaceAll(url, host.quote(oldName), host.quote(newName))
    else ReplaceAll(url, host.quote(oldName), host.quote(newName))
  }

  /**
    Lines 135-139 as written: a URL that ends with `index/` loses every
    occurrence of `index/`, wherever it stands.
  */
  function StripIndexAsWritten(url: string): (r: string)
    ensures EndsWith(url, "index/") ==> r == Join(Split(url, "index/"), "")
    ensures !EndsWith(url, "index/") ==> r == url
  {
    if EndsWith(url, "index/") then
      ReplaceAllIsJoinOfSplit(url, "index/", "");
      ReplaceAll(url, "index/", "")
    else url
  }

  /** The spelling of the URL segment the index step looks for. */
  lemma IndexSlashSpelled()
    ensures "index" + "/" == "index/"
  {
  }

  /** The URL's last directory segment is `index` (the URL is `index/` or ends with `/index/`). */
  predicate EndsWithIndexSegment(url: string)
  {
    EndsWith(url, "index/") && (|url| == 6 || url[|url| - 7] == '/')
  }

  /**
    Lines 135-139 as intended: a URL whose last directory segment is
    `index` loses that segment and nothing else; any other URL is kept.
  */
  function StripIndex(url: string): (r: string)
    ensures !EndsWithIndexSegment(url) ==> r == url
    ensures EndsWithIndexSegment(url) ==> r + "index/" == url
    ensures EndsWithIndexSegment(url) ==>
      && |Split(url, "/")| >= 2
      && Split(url, "/")[|Split(url, "/")| - 2] == "index"
      && Split(r, "/") == Split(url, "/")[..|Split(url, "/")| - 2] + [""]
  {
    if EndsWithIndexSegment(url) then
      var r := url[..|url| - 6];
      assert r + "index/" == url;
      assert r == [] || r[|r| - 1] == url[|url| - 7];
      IndexSegmentSplit(r);
      r
    else url
  }

  /** How `/`-segments change when a trailing `index/` is appended to a directory URL. */
  lemma IndexSegmentSplit(r: string)
    requires r == [] || r[|r| - 1] == '/'
    ensures
      var segs := Split(r + "index/", "/");
      && |segs| >= 2
      && segs[|segs| - 2] == "index"
      && Split(r, "/") == segs[..|segs| - 2] + [""]
  {
    if r == [] {
      IndexSlashSplit();
      assert r + "index/" == "index/";
      EmptySplit();
      DropTwo([], Split(r + "index/", "/"), Split(r, "/"));
    } else {
      var p := r[..|r| - 1];
      assert r == p + "/";
      DirIndexSplit(p);
      DropTwo(Split(p, "/"), Split(r + "index/", "/"), Split(r, "/"));
    }
  }

  lemma EmptySplit()
    ensures Split("", "/") == [""]
  {
  }

  lemma DirIndexSplit(p: string)
    ensures Split(p + "/", "/") == Split(p, "/") + [""]
    ensures Split(p + "/" + "index/", "/") == Split(p, "/") + ["index", ""]
  {
    EmptySplit();
    assert p + "/" == p + ['/'] + "";
    SplitAppend(p, '/', "");
    assert p + "/" + "index/" == p + ['/'] + "index/";
    SplitAppend(p, '/', "index/");
    IndexSlashSplit();
  }

  lemma IndexSlashSplit()
    ensures Split("index/", "/") == ["index", ""]
  {
    ContainsChar("index", '/');
    SplitNone("index", "/");
    EmptySplit();
    assert "index/" == "index" + ['/'] + "";
    SplitAppend("index", '/', "");
  }

  lemma DropTwo(prefix: seq<string>, segs: seq<string>, dirs: seq<string>)
    requires segs == prefix + ["index", ""]
    requires dirs == prefix + [""]
    ensures |segs| >= 2 && segs[|segs| - 2] == "index" && dirs == segs[..|segs| - 2] + [""]
  {
    assert segs[..|segs| - 2] == prefix;
  }

  /**
    `translate_page` (lines 90-140), with the intended index handling:
    a copy of the page whose name has its `.<lang>` removed, whose
    destination path and URL live under `<lang>/`, and whose absolute
    destination is the site directory joined with the new path. The
    copy keeps the source path and the page's kind.
  */
  function TranslatePage(cfg: Config, host: Host, page: File): (r: File)
    ensures r.srcPath == page.srcPath && r.isDoc == page.isDoc
    ensures r.name == Join(Split(page.name, "." + GetLang(cfg, page.url)), "")
    ensures StartsWith(r.destPath, GetLang(cfg, page.url) + "/")
    ensures r.absDestPath == host.join(host.siteDir, r.destPath)
    ensures
      var renamed := RenameInUrl(host, PrefixUrl(GetLang(cfg, page.url), page.url), page.name, r.name);
      && (EndsWithIndexSegment(renamed) ==> r.url + "index/" == renamed)
      && (!EndsWithIndexSegment(renamed) ==> r.url == renamed)
  {
    var lang := GetLang(cfg, page.url);
    var name := StripLangSuffix(page.name, lang);
    var dest := DestPath(page.destPath, lang, page.name, name);
    var url := StripIndex(RenameInUrl(host, PrefixUrl(lang, page.url), page.name, name));
    page.(name := name, destPath := dest, absDestPath := host.join(host.siteDir, dest), url := url)
  }

  /** `translate_page` (lines 90-140) exactly as written. */
  function TranslatePageAsWritten(cfg: Config, host: Host, page: File): (r: File)
    ensures r.srcPath == page.srcPath && r.isDoc == page.isDoc
    ensures r.name == Join(Split(page.name, "." + GetLang(cfg, page.url)), "")
    ensures StartsWith(r.destPath, GetLang(cfg, page.url) + "/")
    ensures r.absDestPath == host.join(host.siteDir, r.destPath)
    ensures
      var renamed := RenameInUrl(host, PrefixUrl(GetLang(cfg, page.url), page.url), page.name, r.name);
      && (EndsWith(renamed, "index/") ==> r.url == Join(Split(renamed, "index/"), ""))
      && (!EndsWith(renamed, "index/") ==> r.url == renamed)
  {
    var lang := GetLang(cfg, page.url);
    var name := StripLangSuffix(page.name, lang);
    var dest := DestPathAsWritten(page.destPath, lang, page.name, name);
    var url := StripIndexAsWritten(RenameInUrl(host, PrefixUrl(lang, page.url), page.name, name));
    page.(name := name, destPath := dest, absDestPath := host.join(host.siteDir, dest), url := url)
  }

  /** `translate_page` in terms of its steps, once the language and new name are known. */
  lemma TranslatePageSteps(cfg: Config, host: Host, page: File, lang: string, name: string)
    requires GetLang(cfg, page.url) == lang && StripLangSuffix(page.name, lang) == name
    ensures TranslatePage(cfg, host, page).srcPath == page.srcPath
    ensures TranslatePage(cfg, host, page).isDoc == page.isDoc
    ensures TranslatePage(cfg, host, page).name == name
    ensures TranslatePage(cfg, host, page).destPath == DestPath(page.destPath, lang, page.name, name)
    ensures TranslatePage(cfg, host, page).absDestPath == host.join(host.siteDir, DestPath(page.destPath, lang, page.name, name))
    ensures TranslatePage(cfg, host, page).url == StripIndex(RenameInUrl(host, PrefixUrl(lang, page.url), page.name, name))
  {
  }

  /** `translate_page` as written in terms of its steps, once the language and new name are known. */
  lemma TranslatePageAsWrittenSteps(cfg: Config, host: Host, page: File, lang: string, name: string)
    requires GetLang(cfg, page.url) == lang && StripLangSuffix(page.name, lang) == name
    ensures TranslatePageAsWritten(cfg, host, page).srcPath == page.srcPath
    ensures TranslatePageAsWritten(cfg, host, page).isDoc == page.isDoc
    ensures TranslatePageAsWritten(cfg, host, page).name == name
    ensures TranslatePageAsWritten(cfg, host, page).destPath == DestPathAsWritten(page.destPath, lang, page.name, name)
    ensures TranslatePageAsWritten(cfg, host, page).absDestPath
      == host.join(host.siteDir, DestPathAsWritten(page.destPath, lang, page.name, name))
    ensures TranslatePageAsWritten(cfg, host, page).url
      == StripIndexAsWritten(RenameInUrl(host, PrefixUrl(lang, page.url), page.name, name))
  {
  }
}

=== FILE: wrappers.dfy ===
/** The optional value the plugin returns where Python returns `None`. */
module Wrappers {

  datatype Option<+T> = None | Some(value: T)
}
